=== FILE: README.md ===
# CakePHP Router, modelled in Dafny

This project models the static `Router` class of CakePHP (`lib/Cake/Routing/Router.php`).
The Router keeps the connected routes, the routing prefixes, the extension-parsing
settings, the REST resource map and a stack of requests. It does three jobs:

- **Registration** (`connect`, `redirect`, `mapResources`): adds routes and registers their prefixes.
- **Parsing** (`parse`, `_parseExtension`): roots an incoming URL, strips its query string and a
  trailing `.ext`, and post-processes what the route collection parses.
- **Generation** (`url`, `queryString`, `reverse`, `normalize`): builds URLs from arrays or
  strings in the context of the current request, and compares URLs.

The PHP state is an immutable `Router` record. Every static method is a pure function from
one state to the next, or to a result. The PHP values these methods handle are modelled as
`Value = Null | Bool | Int | Str | Arr`. An array is `Params`: a map for its string keys and a
list for its integer keys, so that `array_merge` renumbering becomes concatenation. PHP's
`empty`, `isset`, `+=` and `array_merge` each have their own function (`PhpValue`).

Code the Router calls but that is not part of this model is passed in as function parameters:

- the route collection's `parse` and `match`: the `Collection` record;
- `Inflector::underscore`, `pluginSplit` and `http_build_query`: the `Foreign` record;
- the `FULL_BASE_URL` constant: an `Option<string>` argument, `None` when it is undefined;
- the `Routing.prefixes` configuration: an argument of `Reload`;
- the set of loaded `Route` subclasses: a field of the state.

The class's errors are `Err` values of `RouterError`:

- an invalid route class (`RouterException`);
- a `redirect` target that is neither string nor array;
- the fatal "cannot unset string offset" that `reverse` raises on a string query.

`connect` and `redirect` return their errors inside a `Thrown`, together with the state at the
moment of the throw. `connect` registers a route's prefix before it checks the route class, so
a failed check still leaves that prefix registered.

Modules follow the source's structure:

| file | module | covers |
|---|---|---|
| results.dfy | Results | `Option`, `Result` |
| php_value.dfy | PhpValue | PHP values and arrays |
| php_string.dfy | PhpString | `strpos`, `substr` cuts, `str_replace('//','/')`, case folding, character classes |
| router_state.dfy | RouterState | state, constants, `reload`, `parseExtensions`, `extensions`, `prefixes`, `defaultRouteClass`, `resourceMap` |
| request_stack.dfy | RequestStack | `setRequestInfo`, `popRequest`, `getRequest` |
| connect.dfy | Registration | `connect`, `redirect` |
| resources.dfy | Resources | `mapResources` |
| extension.dfy | Extension | `_parseExtension` |
| parse.dfy | Parsing | `parse` |
| url.dfy | Generation | `url`, `queryString` |
| reverse.dfy | Reversal | `reverse` |
| normalize.dfy | Normalization | `normalize` |

PCRE semantics are followed where they matter. Without the `D` modifier, `$` also matches just
before a final newline. This is modelled both in the `_parseExtension` pattern and in the
trailing-slash removal of `normalize`; the latter gives the finding below.

## Model

| member | source | states |
|---|---|---|
| RouterState.Reload | lib/Cake/Routing/Router.php:576-590 | the restored state has no routes, requests or mapped resources, extension parsing off with no whitelist, the configured prefixes, the default route class, the given set of loaded route subclasses, and exactly the six-entry default REST map (`index`, `view`, `add`, `edit`, `delete` and the `POST` form of `edit`, with their methods and id flags) |
| RouterState.ParseExtensions | lib/Cake/Routing/Router.php:920-925 | parsing is switched on; a non-empty argument list replaces the whitelist, an empty one keeps it; nothing else changes |
| RouterState.ValidateRouteClass | lib/Cake/Routing/Router.php:173-178 | a class is accepted exactly when it is a string naming a loaded subclass of the route class, and the name is returned unchanged; otherwise the error names the rejected value |
| RouterState.SetDefaultRouteClass | lib/Cake/Routing/Router.php:159-164 | succeeds exactly for a valid class, and then changes only the default route class |
| RequestStack.SetRequestInfo | lib/Cake/Routing/Router.php:471-473 | a request object is pushed on top of the stack and nothing else changes |
| RequestStack.PadRequestParams | lib/Cake/Routing/Router.php:475-481 | an array request gains `controller` and `action` (false) and `plugin` (null) only where missing; every given key keeps its value |
| RequestStack.PopRequest | lib/Cake/Routing/Router.php:505-507 | popping returns the top request and removes it, or returns null and leaves an empty stack unchanged |
| RequestStack.GetRequest | lib/Cake/Routing/Router.php:515-521 | null exactly when the stack is empty; otherwise the top request when `current`, else the first |
| RequestStack.PopUndoesPush | lib/Cake/Routing/Router.php:471-507 | a pop right after a push returns the pushed request and restores the previous state |
| RequestStack.NestedPushKeepsOriginal | lib/Cake/Routing/Router.php:471-521 | after a nested push the new request is current, while the original request is still the first one |
| RequestStack.LastInFirstOut | lib/Cake/Routing/Router.php:471-507 | two pushes are undone by two pops in reverse order, restoring the state |
| Registration.FirstPresentPrefix | lib/Cake/Routing/Router.php:269-278 | the index found is the first registered prefix that is set in the defaults; none is set when none is returned |
| Registration.PrefixFlag | lib/Cake/Routing/Router.php:269-278 | only the first prefix set in the defaults is acted on: if truthy it becomes `prefix`, if falsy its key is removed; all other keys are untouched |
| Registration.RouteDefaults | lib/Cake/Routing/Router.php:269-286 | `plugin` is always present and null when not given; `action` is `index` when missing unless an `action` option is given; every default other than `prefix` keeps its value, falsy ones such as `0`, `''` or null included, except the first registered prefix flag when it is empty, which is removed (unless it is `plugin` or `action`, which are then filled in again); no keys beyond `prefix`, `plugin` and `action` are added |
| Registration.TruthyDefaultKept | lib/Cake/Routing/Router.php:269-286 | a default with a non-empty value, other than `prefix`, comes out of `connect`'s processing with that value |
| Registration.Dedup | lib/Cake/Routing/Router.php:281 | the result has no duplicates and holds exactly the input's elements |
| Registration.DedupOfDistinct | lib/Cake/Routing/Router.php:281 | a list without duplicates is unchanged, so first-seen order is kept |
| Registration.DedupAppend | lib/Cake/Routing/Router.php:280-281 | appending a name to a duplicate-free list adds it at the end only if it is new |
| Registration.RegisterPrefix | lib/Cake/Routing/Router.php:279-282 | without a `prefix` default the prefixes are unchanged; with one they stay duplicate-free, keep every old prefix and gain the new name once, at the end |
| Registration.ConnectAs | lib/Cake/Routing/Router.php:283-295 | exactly one route is appended with the template, the processed defaults (or the `redirect` target for a redirect route), the options and the class; only routes and prefixes change |
| Registration.Connect | lib/Cake/Routing/Router.php:268-296 | fails exactly when a `routeClass` option is invalid, with that class in the error and the state as it stands at the throw: the prefix already registered, no route added; otherwise exactly one route is appended with the given template, the options with `routeClass` removed when it was set, the validated class or the default one, and defaults built from the prefix flag, `plugin` and `action` rules (for the redirect class, the `redirect` entry when set); the prefixes are registered |
| Registration.Redirect | lib/Cake/Routing/Router.php:330-336 | succeeds exactly for a string or array target when the redirect class is loaded; another target fails with the state unchanged, and a missing redirect class fails after the target's prefix flag is registered; on success it appends one redirect route whose options are the given ones without `routeClass`; a string target becomes the route's defaults, and an array target is built as `connect` builds defaults, reduced to its `redirect` entry when that is set |
| Resources.ConnectResourceRoute | lib/Cake/Routing/Router.php:366-377 | one REST route is connected with the entry's template, the id pattern and `pass` options and the current class; its defaults hold the plugin, the controller's URL name, the entry's action and `[method]`, each whenever not empty; and when none of those four keys is a registered prefix, the defaults are exactly those four entries and the prefix list is unchanged |
| Resources.MapEntriesAppends | lib/Cake/Routing/Router.php:365-378 | the inner loop appends one route per resource-map entry, in map order, each with its template, REST options and class, and the plugin, controller, action and `[method]` defaults whenever not empty; the earlier routes are kept |
| Resources.ResourceDefaultsKept | lib/Cake/Routing/Router.php:366-377 | when none of `plugin`, `controller`, `action`, `[method]` is a registered prefix, `connect` keeps a resource route's defaults exactly and registers no prefix |
| Resources.ResourceDefaultsSurvive | lib/Cake/Routing/Router.php:366-377 | the defaults `connect` builds for a resource route keep each of the four entries whenever its value is not empty, and have no `redirect` entry |
| Resources.MapEntriesDefaults | lib/Cake/Routing/Router.php:365-378 | when no resource key is a registered prefix, one controller's routes carry, entry by entry, exactly the plugin, URL name, action and `[method]` defaults, and the prefix list is unchanged |
| Resources.ResourceTemplatesCount | lib/Cake/Routing/Router.php:359-380 | there are as many templates as controllers times map entries |
| Resources.MapEntries | lib/Cake/Routing/Router.php:365-378 | the inner loop appends exactly one route per resource-map entry and keeps the earlier routes; the resource map, route class, requests and mapped names are untouched |
| Resources.MapController | lib/Cake/Routing/Router.php:360-380 | one controller's pass appends routes after the existing ones and records the controller's underscored name at the end of the mapped list |
| Resources.MapControllers | lib/Cake/Routing/Router.php:359-381 | the controller loop only appends routes, and the mapped list gains each controller's underscored name, in argument order |
| Resources.MapControllersAppends | lib/Cake/Routing/Router.php:359-381 | the appended routes carry exactly the computed templates in order, all with the REST options and the current route class |
| Resources.MapControllersDefaults | lib/Cake/Routing/Router.php:359-381 | when no resource key is a registered prefix, the appended routes carry, controller by controller and entry by entry, exactly the controller's plugin and URL name and the entry's action and `[method]`, and the prefix list is unchanged |
| Resources.ResourceDefaultsBlock | lib/Cake/Routing/Router.php:359-381 | controller `i`'s block of defaults comes after the blocks of the controllers before it and before those after it |
| Resources.ResourceDefaultsConcat | lib/Cake/Routing/Router.php:359-381 | the defaults for two lists of controllers are the first list's followed by the second's |
| Resources.ResourceDefaultsCount | lib/Cake/Routing/Router.php:359-381 | each controller contributes one set of defaults per map entry |
| Resources.MapResources | lib/Cake/Routing/Router.php:353-386 | `mapResources` appends controllers times entries routes with the computed templates and REST options, and returns the mapped list extended by the new names; when no resource key is a registered prefix, the routes' defaults are exactly the per-controller, per-entry resource defaults and the prefixes are unchanged |
| Extension.TrailingToken | lib/Cake/Routing/Router.php:438-439 | a token found is letters and digits only, and the URL ends with a dot and the token, ignoring one final newline |
| Extension.FirstCaseMatch | lib/Cake/Routing/Router.php:444-449 | the index found is the first whitelisted name equal to the token ignoring case; none found means none matches |
| Extension.ParseExtension | lib/Cake/Routing/Router.php:434-455 | with parsing off nothing changes; an extension is the URL's trailing token, found with an empty whitelist or exactly when a whitelisted name matches it ignoring case; the URL only ever loses a suffix |
| Extension.ExtensionWithoutWhitelist | lib/Cake/Routing/Router.php:440-442 | with an empty whitelist, `pre.tok` yields `tok`, and the URL is cut at the first `.tok`, which no longer occurs in it |
| Extension.CutLeavesNoOccurrence | lib/Cake/Routing/Router.php:441 | what `substr` keeps before the first occurrence of a non-empty needle holds no occurrence of it |
| Extension.ExtensionWithWhitelist | lib/Cake/Routing/Router.php:443-450 | with a whitelist, `pre.tok` yields `tok` in the URL's spelling exactly when a name matches ignoring case, and is left whole otherwise |
| Extension.CaseMismatchEmptiesUrl | lib/Cake/Routing/Router.php:444-449 | when the first whitelisted name equal to the token ignoring case (say `RSS` for `/posts.rss`) does not occur in the URL in its own spelling, the extension is still reported but the URL becomes empty, because the cut searches case-sensitively |
| Extension.CaseMatchCutsAtName | lib/Cake/Routing/Router.php:444-449 | the first whitelisted name equal to the token ignoring case decides the cut: when its own spelling occurs, the URL is cut at its first occurrence and the token is the extension |
| Parsing.RootPath | lib/Cake/Routing/Router.php:407-412 | the path has no `?`; a truthy URL comes out rooted; a rooted URL without `?` is unchanged |
| Parsing.CollectionPath | lib/Cake/Routing/Router.php:407-416 | the path handed to the collection has no `?`; for a URL PHP does not count as empty (neither `""` nor `"0"`) it is rooted or empty, and empty only when an extension was cut |
| Parsing.PrefixAndExtension | lib/Cake/Routing/Router.php:418-425 | a routed prefix renames the action to `prefix_action`; a non-empty parsed extension is added only when the route set none; every other parameter is the collection's |
| Parsing.Parse | lib/Cake/Routing/Router.php:403-426 | the result is the collection's parse of the cleaned path, with the prefixed action and the parsed extension as above |
| Parsing.ParseWithoutExtensions | lib/Cake/Routing/Router.php:414-416 | with parsing off, the collection sees the rooted URL without its query |
| Generation.CurrentOf | lib/Cake/Routing/Router.php:641-662 | with no request, the default parameters and the `localhost:80` context are used; otherwise the top request's parameters, base, port, scheme, host and path |
| Generation.TakeSpecials | lib/Cake/Routing/Router.php:674-689 | `_full` (only when exactly true), `?`, `#` and `ext` are removed when set, giving the full flag, query, `#fragment` and `.ext`; every other key and value is kept |
| Generation.DefaultAction | lib/Cake/Routing/Router.php:692-698 | a truthy action is kept; an empty one becomes the current action when the controller is empty or the current one, otherwise `index`; nothing else changes |
| Generation.StripActionPrefix | lib/Cake/Routing/Router.php:708-709 | removing `prefix_` from the action gives PHP's false exactly when nothing is left, and otherwise the rest of the action |
| Generation.StepKey | lib/Cake/Routing/Router.php:702-710 | one step of the prefix loop changes only its own prefix key, besides the action |
| Generation.ReconcileFrame | lib/Cake/Routing/Router.php:700-711 | the prefix loop leaves every key that is neither a prefix nor `action` as it was |
| Generation.ReconcilePositional | lib/Cake/Routing/Router.php:700-711 | the prefix loop leaves the integer-keyed entries as they were |
| Generation.ReconcileKeys | lib/Cake/Routing/Router.php:700-711 | each prefix key ends up as its own step decides: set to true when the current request has it and the target names no prefix, removed when falsy, kept otherwise |
| Generation.MatchInputKeys | lib/Cake/Routing/Router.php:692-716 | the array given to the collection's `match` always has `controller` and `plugin`, filled from the current request only where missing, and keeps the target's integer-keyed entries |
| Generation.MatchInputKeepsKeys | lib/Cake/Routing/Router.php:692-716 | every key of the target that is neither a prefix nor `action` reaches `match` with its value |
| Generation.MatchInputPrefixes | lib/Cake/Routing/Router.php:700-716 | each prefix key reaches `match` as the prefix loop settles it: true, removed or kept |
| Generation.StepAction | lib/Cake/Routing/Router.php:701-710 | one round of the prefix loop cuts `p_` off the action exactly when the target ends up setting `p`, and otherwise leaves the action alone |
| Generation.OutcomeStable | lib/Cake/Routing/Router.php:701-710 | a second round for the same prefix settles it as the first did |
| Generation.StrippedActionCongruent | lib/Cake/Routing/Router.php:701-710 | the action cut depends on the target only through which prefixes it ends up setting |
| Generation.ReconcileAction | lib/Cake/Routing/Router.php:701-710 | after the prefix loop the action has, for each prefix in order that the target ends up setting, a leading `p_` cut off |
| Generation.MatchInputAction | lib/Cake/Routing/Router.php:692-716 | the action handed to `match` is the defaulted action with those prefixes cut off in order |
| Generation.MatchInputStripsPrefix | lib/Cake/Routing/Router.php:701-710 | with prefix `p` set by the target, an action `p_rest` reaches `match` as `rest`, or as `false` when `rest` is empty (`admin_edit` under `admin` gives `edit`) |
| Generation.MatchInputFalsyPrefixKeepsAction | lib/Cake/Routing/Router.php:701-710 | a prefix the target sets to a falsy non-null value, not switched on by the current request, is dropped and leaves the action unchanged |
| Generation.FirstSetPrefix | lib/Cake/Routing/Router.php:730-735 | a relative string URL is prefixed with `prefix/` for the first registered prefix set in the current request, or with nothing when none is set |
| Generation.HasSchemeIff | lib/Cake/Routing/Router.php:743 | the scheme test holds exactly when the output starts with a letter, followed by letters, digits or `+ , - .`, and then `://` |
| Generation.HasSchemeContains | lib/Cake/Routing/Router.php:743 | an output with a scheme contains `://` |
| Generation.Url | lib/Cake/Routing/Router.php:632-754 | `url($url, $full)`: an empty target (`null`, `false`, `0`, `''`, `'0'`, an empty array) is the current request's `here`, or `/` with no request, behind `FULL_BASE_URL` when `full` is truthy and the constant is defined; a non-empty string holding `://` or starting with `javascript:`, `mailto:` or `#` comes back unchanged |
| Generation.UrlOfEmpty | lib/Cake/Routing/Router.php:666-672 | an empty target gives the current request's path, or `/`, prefixed by the full base URL when asked for and defined |
| Generation.UrlPassThrough | lib/Cake/Routing/Router.php:719-726 | a string containing `://`, or starting with `javascript:`, `mailto:` or `#`, is returned as is |
| Generation.NotPassThrough | lib/Cake/Routing/Router.php:719-726 | a relative path without `:` is not passed through |
| Generation.UrlOfRootedString | lib/Cake/Routing/Router.php:728-729 | a rooted string without `://` has each `//` replaced once (one pass), stays rooted, never grows, and gains the full base URL only when asked for and defined |
| Generation.UrlSinglePass | lib/Cake/Routing/Router.php:745 | for any segments `a` and `b`, `/a///b` comes out as `/a//b`, because the slash replacement is a single pass |
| Generation.ThreeSlashesToTwo | lib/Cake/Routing/Router.php:745 | one pass of the replacement turns `/a///b` into `/a//b` |
| Generation.UrlOfRelativeString | lib/Cake/Routing/Router.php:730-745 | with no plugin and no prefix set in the current request, a relative path `s` becomes `/controller/s`, the controller underscored (`view/5` under `Posts` gives `/posts/view/5`) |
| Generation.RelativeUrlOutput | lib/Cake/Routing/Router.php:730-740 | with no plugin and no prefix set, a relative string is finished from `controller/s` |
| Generation.RelativeOutputFrame | lib/Cake/Routing/Router.php:730-740 | for any current request, a relative target's path starts with the first prefix the request sets, then the plugin segment when a plugin other than the controller is set, and ends with `/` and the target |
| Generation.RelativeFinish | lib/Cake/Routing/Router.php:743-753 | finishing `controller/s` without full base or extension only roots it |
| Generation.FinishClean | lib/Cake/Routing/Router.php:743-753 | a path without `:` or `//` is only rooted |
| Generation.UrlOfUnmatchedArray | lib/Cake/Routing/Router.php:673-716 | an array target without special keys that no route matches gives `/` |
| Generation.UnmatchedArrayUrl | lib/Cake/Routing/Router.php:712-754 | with no match the array branch finishes the empty output, giving `/` |
| Generation.NoSpecials | lib/Cake/Routing/Router.php:674-689 | a target without special keys is passed on whole, with no full flag, query, fragment or extension |
| Generation.UrlFragmentLast | lib/Cake/Routing/Router.php:682-685 | an array target with `#` gives a URL ending in `#` and that fragment |
| Generation.UrlExtensionAfterSlash | lib/Cake/Routing/Router.php:686-689 | for any segment `name` and extension `e`, the trailing slash of a matched `name/` is dropped before the extension, giving `/name.e` (`/posts.rss`) |
| Generation.ExtensionSpecials | lib/Cake/Routing/Router.php:686-689 | a target whose only special key is `ext` contributes just `.ext` |
| Generation.FinishDirWithExtension | lib/Cake/Routing/Router.php:743-753 | a one-segment directory path followed by an extension loses its slash: `name/` gives `/name` and the extension |
| Generation.FinishWithExtension | lib/Cake/Routing/Router.php:743-753 | with an extension, the rooted clean path loses its trailing slashes before the extension is appended |
| Generation.FinishNoQuery | lib/Cake/Routing/Router.php:753 | with a null query and no fragment, the URL is the finished path followed by the extension |
| Generation.FinishPathClean | lib/Cake/Routing/Router.php:743-751 | a path without `:` or `//` is rooted, and loses trailing slashes only when an extension follows |
| Generation.QueryString | lib/Cake/Routing/Router.php:765-793 | null exactly when both the query and the extra parameters are empty; any non-empty result starts with `?` |
| Generation.QueryStringOfArray | lib/Cake/Routing/Router.php:775-791 | an array query is merged with the extras, built, and given a `?` |
| Generation.QueryStringOfString | lib/Cake/Routing/Router.php:777-791 | a string query is kept and followed by the built extras, with a joiner added only when it does not already end in one |
| Generation.QueryStringKeepsString | lib/Cake/Routing/Router.php:777-791 | a string query without extras comes back as is, with a `?` added only when missing |
| Generation.QueryStringEscapeIsStrict | lib/Cake/Routing/Router.php:770-772 | only `escape === true` escapes: any other escape value, a truthy `1` included, builds exactly what `false` builds |
| Reversal.ReverseInput | lib/Cake/Routing/Router.php:808-826 | fails exactly for a string query; otherwise the internal keys are dropped, the passed arguments are merged in and win, the other parameters are kept, and a non-empty query is put under `?` |
| Reversal.Reverse | lib/Cake/Routing/Router.php:808-827 | fails exactly for a string query, and otherwise is `url()` of the reversed array |
| Reversal.ReverseOfParsed | lib/Cake/Routing/Router.php:815-826 | a parsed `posts/view/5` array reverses to controller, action, plugin and the passed `5` alone |
| Reversal.ReverseWithoutPass | lib/Cake/Routing/Router.php:815-826 | with no `pass` and an empty query, the result is the parameters without the internal keys |
| Normalization.BaseOf | lib/Cake/Routing/Router.php:844-846 | the base used is the first request's, and only when it is not empty |
| Normalization.StripBase | lib/Cake/Routing/Router.php:846-847 | the base is removed exactly when it is a case-sensitive prefix, whatever the case-insensitive search finds |
| Normalization.TrimFinalSlashAsWritten | lib/Cake/Routing/Router.php:854 | a final slash is removed, and so is a slash just before a final newline |
| Normalization.TrimFinalSlash | lib/Cake/Routing/Router.php:854 | only a slash that really ends the string is removed |
| PhpString.ReplaceAfterClean | lib/Cake/Routing/Router.php:745 | the one-pass replacement goes through a prefix without `//` that does not end in `/` unchanged |
| PhpString.CollapseSlashes | lib/Cake/Routing/Router.php:851-853 | the loop ends with no `//` left, never lengthens the string and keeps a leading slash |
| Normalization.Canonical | lib/Cake/Routing/Router.php:849-859 | the path comes out rooted and without `//`, and ends with a slash only when it is `/` |
| Normalization.NormalizeString | lib/Cake/Routing/Router.php:841-859 | a URL with a lower-case scheme is returned unchanged; anything else comes out rooted, without `//`, ending in a slash only when it is `/` |
| Normalization.Normalize | lib/Cake/Routing/Router.php:837-860 | as written: a URL with a lower-case scheme comes back unchanged; one without a newline comes out rooted, without `//`, ending in a slash only when it is `/`, and equal to the corrected result |
| Normalization.NormalizeCorrected | lib/Cake/Routing/Router.php:837-860 | with the intended trailing-slash removal, every URL without a scheme comes out rooted, without `//`, and ending in a slash only when it is `/` |
| Normalization.CollapseRooted | lib/Cake/Routing/Router.php:848-853 | rooting and collapsing a rooted path without `//` gives it back |
| Normalization.NormalizeIdempotent | lib/Cake/Routing/Router.php:837-860 | for the corrected normalization, with no base path, normalizing a normalized URL changes nothing (the code as written is not idempotent; see Findings) |
| Normalization.NormalizeUnderBase | lib/Cake/Routing/Router.php:846-859 | a URL starting with the base normalizes like its remainder does with no request |
| Normalization.NormalizeKeepsUnprefixed | lib/Cake/Routing/Router.php:846-847 | a URL that does not start with the base in the same case normalizes as if there were no request |
| Normalization.AsWrittenAgreesWithoutNewline | lib/Cake/Routing/Router.php:849-854 | for a URL without a newline, the code as written and the corrected code agree |
| Normalization.NewlineLosesRoot | lib/Cake/Routing/Router.php:848-858 | the URL `"\n"` normalizes to the unrooted `"\n"` as written, and to `"/\n"` when corrected |
| Normalization.NotIdempotentAsWritten | lib/Cake/Routing/Router.php:848-858 | as written and with no base path, `"/a/\n/"` normalizes to `"/a/\n"` and that normalizes again to `"/a\n"` |

## Left out

- `promote`, `requestRoute`, `currentRoute`, `getParams`, `getParam`, `getPaths`, `setRouteCollection`, `getNamedExpressions`: these either delegate to the route collection or only read state the model holds as plain fields.
- `stripPlugin`: a pure string helper, but it splices the plugin name into a regular expression, so its result depends on PCRE matching of an arbitrary pattern, which the model does not implement.
- `extensions()`, `prefixes()` and the `resourceMap()` setter are plain field reads and writes (`Extensions`, `Prefixes`, `SetResourceMap`) and have no contract of their own.
- The route collection's `parse` and `match`, route classes themselves, `Inflector::underscore`, `pluginSplit` and `http_build_query` are function parameters, not models.
- `class_exists`/`is_subclass_of`: the loaded route subclasses are a set in the state.
- Reading `Configure` in `_setPrefixes`: the configured prefixes are an argument of `Reload`.
- `Reload` restores the initial state directly; it does not model the first-call capture of `get_class_vars`.
- `RequestStack.PadRequestParams`: the array form of `setRequestInfo` is modelled only up to padding the parameters; building a `Request` object and its paths is left out.
- The request's `port()`, `scheme()` and `host()` accessors are plain fields of `Request`.
- PHP arrays keep string keys in a map and integer keys as a list, so the relative order of string and integer keys, and explicit integer keys, are not modelled.
- `Reversal.ReverseInput`: a boolean or integer query is treated like an empty or scalar value, and `unset` on it as a no-op; only the string case raises the fatal error.
- `Resources.MapResources`: a single string controller is modelled as a one-element list (the `(array)` cast).
- `Reversal.ReverseOfParsed`: a single worked example; the all-inputs statements are `Reversal.ReverseInput` and `Reversal.ReverseWithoutPass`.
- `Generation.UrlOfRelativeString`: the exact URL is stated only for a current request with no plugin and no prefix set, and a controller that underscores to one segment. In general, `Generation.UrlOfRelative` only unfolds `url()` into finishing the path, and `Generation.RelativeOutputFrame` states how that path begins and ends.
- `url($url, $full)` with an array `$full` runs `extract($full + ...)` (Router.php:636), which also lets a `url` key there replace the target; the model's `FullArg` reads only `escape` and `full`.
- A `$full` that is neither a boolean nor an array is a fatal error at `$full + array(...)`; `FullArg` has no such value.
- `Generation.ReconcileAction`: assumes no registered prefix is named `action`, so that the prefix loop's own writes to `action` are not also prefix flags.
- `Resources.MapEntriesDefaults`, `Resources.MapControllersDefaults`, `Resources.MapResources`: the exact defaults are stated only when none of `plugin`, `controller`, `action`, `[method]` is a registered prefix; otherwise a prefix flag rule can rewrite them, and only the non-empty entries are stated (`Resources.MapEntriesAppends`).
- `Generation.QueryString`: its contract states emptiness and the leading `?`; the exact text is stated by the three lemmas that follow it.

## Findings

| source | as written | input that shows it | evidently intended | confidence | as-written member | corrected member |
|---|---|---|---|---|---|---|
| lib/Cake/Routing/Router.php:854 | `preg_replace('/(?:(\/$))/', '', $url)` has no `D` modifier, so `$` also matches before a final newline and a slash there is removed too | `normalize("\n")`: the URL becomes `"/\n"`, then `"\n"`, and the unrooted `"\n"` is returned; `"/a/\n/"` gives `"/a/\n"`, which gives `"/a\n"`, so normalizing twice differs from once | only a slash that ends the string is removed, so the result is `"/\n"`, rooted like every other normalized path | not executed | Normalization.NormalizeStringAsWritten, used by Normalization.Normalize (shown by Normalization.NewlineLosesRoot and Normalization.NotIdempotentAsWritten) | Normalization.NormalizeString, used by Normalization.NormalizeCorrected (rooted by Normalization.Canonical, idempotent by Normalization.NormalizeIdempotent) |

=== FILE: connect.dfy ===
/**
 * Route registration: `connect` with its prefix-flag normalisation and
 * defaults, `redirect` on top of it, and the REST routes of `mapResources`.
 */
module Registration {
  import opened Results
  import opened PhpValue
  import opened RouterState

  /** Index of the first registered prefix (from `from` on) that is set in `defaults`. */
  function FirstPresentPrefix(prefixes: seq<string>, defaults: Params, from: nat := 0): (r: Option<nat>)
    requires from <= |prefixes|
    ensures r.Some? ==> from <= r.value < |prefixes| && Isset(defaults, prefixes[r.value])
    ensures r.Some? ==> forall j :: from <= j < r.value ==> !Isset(defaults, prefixes[j])
    ensures r.None? ==> forall j :: from <= j < |prefixes| ==> !Isset(defaults, prefixes[j])
    decreases |prefixes| - from
  {
    if from == |prefixes| then None
    else if Isset(defaults, prefixes[from]) then Some(from)
    else FirstPresentPrefix(prefixes, defaults, from + 1)
  }

  /**
   * Only the first registered prefix set in the defaults is acted on: a
   * truthy flag makes it the route's `prefix`, a falsy one is removed.
   */
  function PrefixFlag(prefixes: seq<string>, defaults: Params): (d: Params)
    ensures d.positional == defaults.positional
    ensures FirstPresentPrefix(prefixes, defaults).None? ==> d == defaults
    ensures var i := FirstPresentPrefix(prefixes, defaults);
            i.Some? && Truthy(defaults.named[prefixes[i.value]]) ==>
              && Get(d, "prefix") == Str(prefixes[i.value])
              && d.named.Keys == defaults.named.Keys + {"prefix"}
              && forall k :: k != "prefix" ==> Get(d, k) == Get(defaults, k)
    ensures var i := FirstPresentPrefix(prefixes, defaults);
            i.Some? && Empty(defaults.named[prefixes[i.value]]) ==>
              && d.named.Keys == defaults.named.Keys - {prefixes[i.value]}
              && forall k :: k != prefixes[i.value] ==> Get(d, k) == Get(defaults, k)
  {
    match FirstPresentPrefix(prefixes, defaults)
    case None => defaults
    case Some(i) =>
      var p := prefixes[i];
      if Truthy(defaults.named[p]) then Set(defaults, "prefix", Str(p)) else Unset(defaults, p)
  }

  /**
   * The defaults a connected route is built with: prefix flag normalised,
   * `plugin` defaulting to null and, unless an `action` option is given,
   * `action` defaulting to `index`.
   */
  function RouteDefaults(prefixes: seq<string>, defaults: Params, options: Params): (d: Params)
    ensures d.positional == defaults.positional
    ensures "plugin" in d.named
    ensures "plugin" !in defaults.named ==> d.named["plugin"] == Null
    ensures Empty(Get(options, "action")) ==> "action" in d.named
    ensures Empty(Get(options, "action")) && "action" !in defaults.named ==> d.named["action"] == Str("index")
    ensures Truthy(Get(options, "action")) ==> ("action" in d.named <==> "action" in PrefixFlag(prefixes, defaults).named)
    ensures d.named.Keys <= defaults.named.Keys + {"prefix", "plugin", "action"}
    ensures forall k :: k in defaults.named && k != "prefix" && !DroppedFlag(prefixes, defaults, k) ==>
              k in d.named && d.named[k] == defaults.named[k]
    ensures forall k :: DroppedFlag(prefixes, defaults, k) && k != "plugin" && k != "action" ==> k !in d.named
    ensures Get(d, "prefix") == Get(PrefixFlag(prefixes, defaults), "prefix")
  {
    var flagged := PrefixFlag(prefixes, defaults);
    PrefixFlagSurvivors(prefixes, defaults);
    var withPlugin := AddMissing(flagged, "plugin", Null);
    if Empty(Get(options, "action")) then AddMissing(withPlugin, "action", Str("index")) else withPlugin
  }

  /** A default with a non-empty value, other than `prefix`, survives `connect` as it is. */
  lemma TruthyDefaultKept(prefixes: seq<string>, defaults: Params, options: Params, k: string)
    requires k in defaults.named && k != "prefix" && Truthy(defaults.named[k])
    ensures Get(RouteDefaults(prefixes, defaults, options), k) == defaults.named[k]
  {
    assert !DroppedFlag(prefixes, defaults, k);
  }

  /** Key `k` is the prefix flag that `connect` removes: the first registered prefix set, with an empty value. */
  predicate DroppedFlag(prefixes: seq<string>, defaults: Params, k: string) {
    var i := FirstPresentPrefix(prefixes, defaults);
    i.Some? && prefixes[i.value] == k && Empty(defaults.named[k])
  }

  /**
   * The prefix flag adds at most `prefix`, and every default other than
   * `prefix` keeps its value, whatever it is, except a falsy prefix flag,
   * which is removed.
   */
  lemma PrefixFlagSurvivors(prefixes: seq<string>, defaults: Params)
    ensures var d := PrefixFlag(prefixes, defaults);
            && d.named.Keys <= defaults.named.Keys + {"prefix"}
            && (forall k :: k in defaults.named && k != "prefix" && !DroppedFlag(prefixes, defaults, k) ==>
                  k in d.named && d.named[k] == defaults.named[k])
            && (forall k :: DroppedFlag(prefixes, defaults, k) ==> k !in d.named)
  {
  }

  /** No element occurs twice. */
  predicate NoDup(xs: seq<string>) {
    forall i, j :: 0 <= i < j < |xs| ==> xs[i] != xs[j]
  }

  /** `array_keys(array_flip($xs))`: duplicates dropped, first-seen order kept. */
  function Dedup(xs: seq<string>): (r: seq<string>)
    ensures NoDup(r)
    ensures forall x :: x in r <==> x in xs
    decreases |xs|
  {
    if |xs| == 0 then []
    else
      var d := Dedup(xs[..|xs| - 1]);
      var x := xs[|xs| - 1];
      assert xs == xs[..|xs| - 1] + [x];
      if x in d then d else d + [x]
  }

  /** A list without duplicates is its own deduplication. */
  lemma {:induction false} DedupOfDistinct(xs: seq<string>)
    requires NoDup(xs)
    ensures Dedup(xs) == xs
    decreases |xs|
  {
    if |xs| > 0 {
      var init := xs[..|xs| - 1];
      assert NoDup(init);
      DedupOfDistinct(init);
      assert xs[|xs| - 1] !in init;
      assert init + [xs[|xs| - 1]] == xs;
    }
  }

  /** Appending to a duplicate-free list keeps its order and adds only a new name. */
  lemma DedupAppend(xs: seq<string>, x: string)
    requires NoDup(xs)
    ensures Dedup(xs + [x]) == if x in xs then xs else xs + [x]
  {
    assert (xs + [x])[..|xs|] == xs;
    DedupOfDistinct(xs);
  }

  /** The prefix name `array_flip` can keep: strings and integers. */
  function PrefixName(v: Value): Option<string> {
    match v
    case Str(s) => Some(s)
    case Int(i) => Some(IntToString(i))
    case _ => None
  }

  /** The registered prefix list after connecting a route with defaults `d`. */
  function RegisterPrefix(prefixes: seq<string>, d: Params): (ps: seq<string>)
    ensures !Isset(d, "prefix") ==> ps == prefixes
    ensures Isset(d, "prefix") ==> NoDup(ps) && forall x :: x in prefixes ==> x in ps
    ensures Isset(d, "prefix") && PrefixName(d.named["prefix"]).Some? ==> PrefixName(d.named["prefix"]).value in ps
    ensures Isset(d, "prefix") && NoDup(prefixes) ==>
      ps == (match PrefixName(d.named["prefix"])
             case None => prefixes
             case Some(n) => if n in prefixes then prefixes else prefixes + [n])
  {
    if !Isset(d, "prefix") then prefixes
    else
      match PrefixName(d.named["prefix"])
      case None =>
        assert NoDup(prefixes) ==> Dedup(prefixes) == prefixes by {
          if NoDup(prefixes) { DedupOfDistinct(prefixes); }
        }
        Dedup(prefixes)
      case Some(n) =>
        assert NoDup(prefixes) ==> Dedup(prefixes + [n]) == (if n in prefixes then prefixes else prefixes + [n]) by {
          if NoDup(prefixes) { DedupAppend(prefixes, n); }
        }
        Dedup(prefixes + [n])
  }

  /** `connect` once the route class is settled: one route appended, prefixes registered. */
  function ConnectAs(r: Router, template: string, defaults: Params, options: Params, cls: string): (r': Router)
    ensures |r'.routes| == |r.routes| + 1 && r'.routes[..|r.routes|] == r.routes
    ensures var route := r'.routes[|r.routes|];
            var d := RouteDefaults(r.prefixes, defaults, options);
            && route.template == template && route.options == options && route.routeClass == cls
            && route.defaults == (if cls == RedirectRouteClass && Isset(d, "redirect") then d.named["redirect"] else Arr(d))
    ensures r'.prefixes == RegisterPrefix(r.prefixes, RouteDefaults(r.prefixes, defaults, options))
    ensures r' == r.(routes := r'.routes, prefixes := r'.prefixes)
  {
    var d := RouteDefaults(r.prefixes, defaults, options);
    var dv := if cls == RedirectRouteClass && Isset(d, "redirect") then d.named["redirect"] else Arr(d);
    r.(routes := r.routes + [Route(template, dv, options, cls)], prefixes := RegisterPrefix(r.prefixes, d))
  }

  /**
   * `connect($route, $defaults, $options)`: a `routeClass` option must name a
   * loaded subclass of the route class and is removed from the options;
   * otherwise the default class is used. Exactly one route is appended. The
   * prefix is registered before the class is checked, so it stays registered
   * when the check throws.
   */
  function Connect(r: Router, template: string, defaults: Params, options: Params): (res: Result<Router, Thrown>)
    ensures res.Err? <==> Isset(options, "routeClass") && ValidateRouteClass(r, options.named["routeClass"]).Err?
    ensures res.Err? ==>
              && res.error.error == InvalidRouteClass(options.named["routeClass"])
              && res.error.state == r.(prefixes := RegisterPrefix(r.prefixes, RouteDefaults(r.prefixes, defaults, options)))
    ensures res.Ok? ==> |res.value.routes| == |r.routes| + 1 && res.value.routes[..|r.routes|] == r.routes
    ensures res.Ok? ==> "routeClass" !in res.value.routes[|r.routes|].options.named || !Isset(options, "routeClass")
    ensures res.Ok? && Isset(options, "routeClass") ==> Str(res.value.routes[|r.routes|].routeClass) == options.named["routeClass"]
    ensures res.Ok? && !Isset(options, "routeClass") ==> res.value.routes[|r.routes|].routeClass == r.routeClass
    ensures res.Ok? ==> res.value.prefixes == RegisterPrefix(r.prefixes, RouteDefaults(r.prefixes, defaults, options))
    ensures res.Ok? ==>
              var rt := res.value.routes[|r.routes|];
              var d := RouteDefaults(r.prefixes, defaults, options);
              && rt.template == template
              && rt.options == (if Isset(options, "routeClass") then Unset(options, "routeClass") else options)
              && rt.defaults == (if rt.routeClass == RedirectRouteClass && Isset(d, "redirect") then d.named["redirect"] else Arr(d))
  {
    RouteDefaultsReadsAction(r.prefixes, defaults, Unset(options, "routeClass"), options);
    if Isset(options, "routeClass") then
      match ValidateRouteClass(r, options.named["routeClass"])
      case Err(e) => Err(Thrown(e, r.(prefixes := RegisterPrefix(r.prefixes, RouteDefaults(r.prefixes, defaults, options)))))
      case Ok(cls) => Ok(ConnectAs(r, template, defaults, Unset(options, "routeClass"), cls))
    else Ok(ConnectAs(r, template, defaults, options, r.routeClass))
  }

  /** The defaults `redirect` hands to `connect`: a string target wrapped as `redirect`, an array as it is. */
  function RedirectDefaults(url: Value): Params
    requires url.Str? || url.Arr?
  {
    if url.Str? then Params(map["redirect" := url], []) else url.a
  }

  /**
   * `redirect($route, $url, $options)`: a redirect route whose defaults are a
   * string target itself, or the array target after `connect`'s processing.
   * A target of another type is a fatal error that leaves the state alone;
   * a missing redirect class throws after the prefix is registered.
   */
  function Redirect(r: Router, template: string, url: Value, options: Params): (res: Result<Router, Thrown>)
    ensures res.Ok? <==> (url.Str? || url.Arr?) && RedirectRouteClass in r.routeSubclasses
    ensures !(url.Str? || url.Arr?) ==> res == Err(Thrown(NotAnArray(url), r))
    ensures res.Err? && (url.Str? || url.Arr?) ==>
              && res.error.error == InvalidRouteClass(Str(RedirectRouteClass))
              && res.error.state == r.(prefixes := RegisterPrefix(r.prefixes, RouteDefaults(r.prefixes, RedirectDefaults(url), options)))
    ensures res.Ok? ==> |res.value.routes| == |r.routes| + 1 && res.value.routes[..|r.routes|] == r.routes
    ensures res.Ok? ==> res.value.routes[|r.routes|].routeClass == RedirectRouteClass
    ensures res.Ok? ==> "routeClass" !in res.value.routes[|r.routes|].options.named
    ensures res.Ok? && url.Str? && (Truthy(url) || "redirect" !in r.prefixes) ==>
              res.value.routes[|r.routes|].defaults == url
    ensures res.Ok? ==> res.value.routes[|r.routes|].options == Unset(options, "routeClass")
    ensures res.Ok? && url.Arr? ==>
              var d := RouteDefaults(r.prefixes, url.a, options);
              res.value.routes[|r.routes|].defaults == (if Isset(d, "redirect") then d.named["redirect"] else Arr(d))
  {
    var opts := Set(options, "routeClass", Str(RedirectRouteClass));
    RedirectOptions(r, options);
    match url
    case Str(_) =>
      RedirectTargetKept(r.prefixes, url, options);
      Connect(r, template, Params(map["redirect" := url], []), opts)
    case Arr(p) => Connect(r, template, p, opts)
    case _ => Err(Thrown(NotAnArray(url), r))
  }

  /** Of the options, `connect` reads only `action` when it builds the defaults. */
  lemma RouteDefaultsReadsAction(prefixes: seq<string>, defaults: Params, o1: Params, o2: Params)
    requires Get(o1, "action") == Get(o2, "action")
    ensures RouteDefaults(prefixes, defaults, o1) == RouteDefaults(prefixes, defaults, o2)
  {
  }

  /** The options `redirect` passes on: the class forced, and gone again once `connect` has read it. */
  lemma RedirectOptions(r: Router, options: Params)
    ensures var opts := Set(options, "routeClass", Str(RedirectRouteClass));
            && Isset(opts, "routeClass")
            && Unset(opts, "routeClass") == Unset(options, "routeClass")
            && forall d :: RouteDefaults(r.prefixes, d, opts) == RouteDefaults(r.prefixes, d, options)
  {
    var opts := Set(options, "routeClass", Str(RedirectRouteClass));
    assert Unset(opts, "routeClass").named == Unset(options, "routeClass").named;
    forall d ensures RouteDefaults(r.prefixes, d, opts) == RouteDefaults(r.prefixes, d, options) {
      RouteDefaultsReadsAction(r.prefixes, d, opts, options);
    }
  }

  /**
   * A string target survives `connect`'s processing as the `redirect`
   * default, unless `redirect` is itself a prefix and the target is falsy.
   */
  lemma RedirectTargetKept(prefixes: seq<string>, url: Value, options: Params)
    requires url.Str?
    ensures Truthy(url) || "redirect" !in prefixes ==>
              var d := RouteDefaults(prefixes, Params(map["redirect" := url], []), options);
              Isset(d, "redirect") && d.named["redirect"] == url
  {
    var defaults := Params(map["redirect" := url], []);
    assert defaults.named["redirect"] == url;
  }
}

=== FILE: extension.dfy ===
/**
 * `_parseExtension`: recognising and stripping a trailing `.ext` from an
 * incoming URL. The pattern is `/\.[0-9a-zA-Z]*$/`; as in PCRE without the
 * D modifier, `$` also matches just before a final newline.
 */
module Extension {
  import opened Results
  import opened PhpString
  import opened RouterState

  /** The URL with its extension stripped, and the extension found (null when none). */
  datatype ExtSplit = ExtSplit(url: string, ext: Option<string>)

  /** The part of `s` a `$` anchor can close: `s` without one final newline. */
  function EndSubject(s: string): (r: string)
    ensures r == s || (r + "\n" == s)
  {
    if |s| > 0 && s[|s| - 1] == '\n' then s[..|s| - 1] else s
  }

  /**
   * The token of the match of `\.[0-9a-zA-Z]*$` in `url`, without its dot.
   * For a bare final dot, PHP 5's `substr(".", 1)` gives `false`; `Some("")`
   * stands for it. `false` acts as "" in `'.' . $match` and in `strcasecmp`,
   * and `parse` only asks whether the extension is empty.
   */
  function TrailingToken(url: string): (t: Option<string>)
    ensures t.Some? ==> IsAlnumString(t.value)
    ensures t.Some? ==> EndsWith(EndSubject(url), "." + t.value)
  {
    var subject := EndSubject(url);
    var k := AlnumSuffix(subject);
    if k < |subject| && subject[|subject| - 1 - k] == '.' then
      assert subject[|subject| - (k + 1)..] == "." + subject[|subject| - k..];
      Some(subject[|subject| - k..])
    else None
  }

  /** Index of the first whitelisted name from `from` on that equals `tok` ignoring case. */
  function FirstCaseMatch(names: seq<string>, tok: string, from: nat := 0): (r: Option<nat>)
    requires from <= |names|
    ensures r.Some? ==> from <= r.value < |names| && CaseEq(names[r.value], tok)
    ensures r.Some? ==> forall j :: from <= j < r.value ==> !CaseEq(names[j], tok)
    ensures r.None? ==> forall j :: from <= j < |names| ==> !CaseEq(names[j], tok)
    decreases |names| - from
  {
    if from == |names| then None
    else if CaseEq(names[from], tok) then Some(from)
    else FirstCaseMatch(names, tok, from + 1)
  }

  /**
   * `_parseExtension($url)`. With parsing on, the matched token is cut off at
   * the FIRST occurrence of `.token` (empty whitelist) or of `.name` for the
   * first whitelisted `name` equal to it ignoring case; when that spelling
   * does not occur, `substr($url, 0, false)` leaves an empty URL.
   */
  function ParseExtension(r: Router, url: string): (res: ExtSplit)
    ensures !r.parseExtensions ==> res == ExtSplit(url, None)
    ensures res.ext.None? ==> res.url == url
    ensures res.ext.Some? ==> r.parseExtensions && TrailingToken(url) == res.ext
    ensures |res.url| <= |url| && res.url == url[..|res.url|]
    ensures r.parseExtensions && r.validExtensions == [] ==> res.ext == TrailingToken(url)
    ensures r.parseExtensions && r.validExtensions != [] && TrailingToken(url).Some? ==>
      (res.ext.Some? <==> exists i :: 0 <= i < |r.validExtensions| && CaseEq(r.validExtensions[i], TrailingToken(url).value))
  {
    if !r.parseExtensions then ExtSplit(url, None)
    else match TrailingToken(url)
      case None => ExtSplit(url, None)
      case Some(tok) =>
        if |r.validExtensions| == 0 then ExtSplit(CutBefore(url, "." + tok), Some(tok))
        else match FirstCaseMatch(r.validExtensions, tok)
          case None => ExtSplit(url, None)
          case Some(i) => ExtSplit(CutBefore(url, "." + r.validExtensions[i]), Some(tok))
  }

  /** A URL ending in `.tok`, `tok` of letters and digits, has exactly `tok` as its trailing token. */
  lemma {:induction false} TrailingTokenOf(pre: string, tok: string)
    requires IsAlnumString(tok)
    ensures TrailingToken(pre + "." + tok) == Some(tok)
  {
    var url := pre + "." + tok;
    assert url[|url| - 1 - |tok|] == '.';
    assert !IsAlnum('.');
    assert EndSubject(url) == url by {
      if |tok| > 0 {
        assert url[|url| - 1] == tok[|tok| - 1];
      }
    }
    var k := AlnumSuffix(url);
    assert k == |tok|;
    assert url[|url| - k..] == tok;
  }

  /** `.tok` occurs in `pre + "." + tok`, first at or before the trailing dot. */
  lemma DotTokenOccurs(pre: string, tok: string)
    ensures StrPos(pre + "." + tok, "." + tok).Some?
    ensures StrPos(pre + "." + tok, "." + tok).value <= |pre|
  {
    var url := pre + "." + tok;
    assert url[|pre|..|pre| + |"." + tok|] == "." + tok;
    assert OccursAt(url, "." + tok, |pre|);
  }

  /**
   * With parsing on and an empty whitelist, `pre.tok` yields extension `tok`
   * and the URL up to the first occurrence of `.tok`.
   */
  lemma ExtensionWithoutWhitelist(r: Router, pre: string, tok: string)
    requires r.parseExtensions && r.validExtensions == []
    requires IsAlnumString(tok)
    ensures var url := pre + "." + tok;
            var cut := StrPos(url, "." + tok);
            cut.Some? && cut.value <= |pre|
            && ParseExtension(r, url) == ExtSplit(url[..cut.value], Some(tok))
            && !Contains(ParseExtension(r, url).url, "." + tok)
  {
    TrailingTokenOf(pre, tok);
    DotTokenOccurs(pre, tok);
    CutLeavesNoOccurrence(pre + "." + tok, "." + tok);
  }

  /** What is left before the first occurrence of `p` holds no `p`. */
  lemma CutLeavesNoOccurrence(url: string, p: string)
    requires |p| > 0 && Contains(url, p)
    ensures !Contains(CutBefore(url, p), p)
  {
    var i := StrPos(url, p).value;
    if Contains(url[..i], p) {
      var j := StrPos(url[..i], p).value;
      assert url[..i][j..j + |p|] == url[j..j + |p|];
      assert OccursAt(url, p, j);
    }
  }

  /**
   * With a whitelist, `pre.tok` changes exactly when some whitelisted name
   * equals `tok` ignoring case; the extension then keeps the URL's spelling.
   */
  lemma ExtensionWithWhitelist(r: Router, pre: string, tok: string)
    requires r.parseExtensions && r.validExtensions != []
    requires IsAlnumString(tok)
    ensures var res := ParseExtension(r, pre + "." + tok);
            && (res.ext.Some? <==> exists i :: 0 <= i < |r.validExtensions| && CaseEq(r.validExtensions[i], tok))
            && (res.ext.Some? ==> res.ext == Some(tok))
            && (res.ext.None? ==> res.url == pre + "." + tok)
  {
    TrailingTokenOf(pre, tok);
  }

  /**
   * The first whitelisted name equal to the token ignoring case, when it
   * occurs nowhere in the URL in its own spelling, is not found by the
   * case-sensitive cut, which empties the URL while the extension is still
   * reported.
   */
  lemma CaseMismatchEmptiesUrl(r: Router, pre: string, tok: string, i: nat)
    requires r.parseExtensions && i < |r.validExtensions| && CaseEq(r.validExtensions[i], tok)
    requires forall j :: 0 <= j < i ==> !CaseEq(r.validExtensions[j], tok)
    requires IsAlnumString(tok)
    requires !Contains(pre + "." + tok, "." + r.validExtensions[i])
    ensures ParseExtension(r, pre + "." + tok) == ExtSplit("", Some(tok))
  {
    TrailingTokenOf(pre, tok);
    FirstCaseMatchAt(r.validExtensions, tok, i);
  }

  /**
   * When the first whitelisted name equal to the token ignoring case occurs
   * in the URL in its own spelling, the URL is cut at its first occurrence.
   */
  lemma CaseMatchCutsAtName(r: Router, pre: string, tok: string, i: nat)
    requires r.parseExtensions && i < |r.validExtensions| && CaseEq(r.validExtensions[i], tok)
    requires forall j :: 0 <= j < i ==> !CaseEq(r.validExtensions[j], tok)
    requires IsAlnumString(tok)
    requires Contains(pre + "." + tok, "." + r.validExtensions[i])
    ensures var url := pre + "." + tok;
            ParseExtension(r, url) == ExtSplit(url[..StrPos(url, "." + r.validExtensions[i]).value], Some(tok))
  {
    TrailingTokenOf(pre, tok);
    FirstCaseMatchAt(r.validExtensions, tok, i);
  }

  /** The first name equal to `tok` ignoring case is the one found. */
  lemma FirstCaseMatchAt(names: seq<string>, tok: string, i: nat)
    requires i < |names| && CaseEq(names[i], tok)
    requires forall j :: 0 <= j < i ==> !CaseEq(names[j], tok)
    ensures FirstCaseMatch(names, tok) == Some(i)
  {
  }
}

=== FILE: normalize.dfy ===
/**
 * `normalize()`: a URL reduced for comparison — the request's base path
 * removed, rooted, runs of slashes collapsed and a trailing slash dropped.
 */
module Normalization {
  import opened Results
  import opened PhpValue
  import opened PhpString
  import opened RouterState
  import opened RequestStack
  import opened Generation

  predicate LowerOrDash(c: char) {
    IsLowerLetter(c) || c == '-'
  }

  /** `preg_match('/^[a-z\-]+:\/\//', $url)`: case-sensitive, unlike the test in `url()`. */
  predicate HasLowerScheme(s: string) {
    var k := LeadingRun(s, LowerOrDash);
    k > 0 && OccursAt(s, "://", k)
  }

  /** A rooted string has no such scheme. */
  lemma RootedHasNoLowerScheme(s: string)
    requires |s| > 0 && s[0] == '/'
    ensures !HasLowerScheme(s)
  {
    assert !LowerOrDash(s[0]);
  }

  /** The base path of the original request, when it is not empty. */
  function BaseOf(r: Router): (b: Option<string>)
    ensures b.Some? <==> |r.requests| > 0 && Truthy(Str(r.requests[0].base))
    ensures b.Some? ==> b.value == r.requests[0].base
  {
    match GetRequest(r, false)
    case None => None
    case Some(req) => if Truthy(Str(req.base)) then Some(req.base) else None
  }

  /** A prefix is found by the case-insensitive search. */
  lemma PrefixFoundIgnoringCase(s: string, b: string)
    requires StartsWith(s, b)
    ensures ContainsIgnoringCase(s, b)
  {
    assert Lower(s)[..|b|] == Lower(b);
    assert OccursAt(Lower(s), Lower(b), 0);
  }

  /**
   * `stristr($url, $base)` and then `preg_replace('/^base/', '', $url, 1)`:
   * the base is removed only where it is a case-sensitive prefix, so the
   * case-insensitive test decides nothing on its own.
   */
  function StripBase(s: string, base: Option<string>): (t: string)
    ensures t == if base.Some? && StartsWith(s, base.value) then s[|base.value|..] else s
  {
    if base.Some? && StartsWith(s, base.value) then PrefixFoundIgnoringCase(s, base.value); s[|base.value|..]
    else s
  }

  /**
   * `preg_replace('/(?:(\/$))/', '', $url)` as written: without the `D`
   * modifier `$` also matches before a final newline, so a slash in front
   * of a final "\n" is removed as well.
   */
  function TrimFinalSlashAsWritten(t: string): (u: string)
    ensures EndsWith(t, "/") ==> u == t[..|t| - 1]
    ensures EndsWith(t, "/\n") ==> u == t[..|t| - 2] + "\n"
    ensures !EndsWith(t, "/") && !EndsWith(t, "/\n") ==> u == t
  {
    if |t| > 0 && t[|t| - 1] == '/' then t[..|t| - 1]
    else if |t| > 1 && t[|t| - 2] == '/' && t[|t| - 1] == '\n' then t[..|t| - 2] + "\n"
    else t
  }

  /** The intended trailing-slash removal: only a slash that really ends the string. */
  function TrimFinalSlash(t: string): (u: string)
    ensures EndsWith(t, "/") ==> u == t[..|t| - 1]
    ensures !EndsWith(t, "/") ==> u == t
  {
    if |t| > 0 && t[|t| - 1] == '/' then t[..|t| - 1] else t
  }

  /** The path part of `normalize()` as written: rooted, slashes collapsed, final slash dropped. */
  function CanonicalAsWritten(x: string): string {
    var u := TrimFinalSlashAsWritten(CollapseSlashes("/" + x));
    if Empty(Str(u)) then "/" else u
  }

  /**
   * The path part of `normalize()` with the trailing-slash removal it
   * intends: rooted, no `//`, and ending with a slash only when it is the
   * root itself.
   */
  function Canonical(x: string): (n: string)
    ensures |n| > 0 && n[0] == '/' && NoDoubleSlash(n) && (n[|n| - 1] == '/' ==> n == "/")
  {
    var t := CollapseSlashes("/" + x);
    assert ("/" + x)[0] == '/';
    var u := TrimFinalSlash(t);
    TrimmedShape(t);
    if Empty(Str(u)) then "/" else u
  }

  /** `normalize()` on a string, as written. */
  function NormalizeStringAsWritten(r: Router, s: string): string {
    if HasLowerScheme(s) then s else CanonicalAsWritten(StripBase(s, BaseOf(r)))
  }

  /**
   * `normalize()` on a string, corrected: a URL with a scheme is left
   * alone; anything else comes out rooted, without `//`, and ending with a
   * slash only when it is the root itself.
   */
  function NormalizeString(r: Router, s: string): (n: string)
    ensures HasLowerScheme(s) ==> n == s
    ensures !HasLowerScheme(s) ==> |n| > 0 && n[0] == '/' && NoDoubleSlash(n) && (n[|n| - 1] == '/' ==> n == "/")
  {
    if HasLowerScheme(s) then s else Canonical(StripBase(s, BaseOf(r)))
  }

  /** The string `normalize()` works on: an array is first turned into a URL with `url()`. */
  function NormalizeInput(r: Router, c: Collection, f: Foreign, fullBase: Option<string>, url: Value): string {
    if url.Arr? then Url(r, c, f, fullBase, url, FullFlag(false)) else ToStr(url)
  }

  /**
   * `normalize($url)` as written. A URL with a scheme is returned as it is;
   * one without a newline comes out rooted, without `//`, ending with a
   * slash only when it is the root itself, and as the corrected version has it.
   */
  function Normalize(r: Router, c: Collection, f: Foreign, fullBase: Option<string>, url: Value): (n: string)
    ensures var s := NormalizeInput(r, c, f, fullBase, url);
            && (HasLowerScheme(s) ==> n == s)
            && ('\n' !in s ==> n == NormalizeCorrected(r, c, f, fullBase, url))
            && ('\n' !in s && !HasLowerScheme(s) ==>
                  |n| > 0 && n[0] == '/' && NoDoubleSlash(n) && (n[|n| - 1] == '/' ==> n == "/"))
  {
    var s := NormalizeInput(r, c, f, fullBase, url);
    if '\n' !in s then AsWrittenAgreesWithoutNewline(r, s); NormalizeStringAsWritten(r, s)
    else NormalizeStringAsWritten(r, s)
  }

  /** `normalize($url)` with the intended trailing-slash removal. */
  function NormalizeCorrected(r: Router, c: Collection, f: Foreign, fullBase: Option<string>, url: Value): (n: string)
    ensures var s := NormalizeInput(r, c, f, fullBase, url);
            && (HasLowerScheme(s) ==> n == s)
            && (!HasLowerScheme(s) ==> |n| > 0 && n[0] == '/' && NoDoubleSlash(n) && (n[|n| - 1] == '/' ==> n == "/"))
  {
    NormalizeString(r, NormalizeInput(r, c, f, fullBase, url))
  }

  /** Dropping the final slash of a clean rooted path leaves "" or a clean rooted path not ending in `/`. */
  lemma TrimmedShape(t: string)
    requires |t| > 0 && t[0] == '/' && NoDoubleSlash(t)
    ensures var u := TrimFinalSlash(t);
            u == "" || (u[0] == '/' && NoDoubleSlash(u) && u[|u| - 1] != '/')
  {
    var u := TrimFinalSlash(t);
    if EndsWith(t, "/") && |t| > 1 {
      assert t[|t| - 2] != '/';
      assert u[|u| - 1] == t[|t| - 2];
    }
  }

  /** Prepending a slash to a clean rooted path and collapsing gives the path back. */
  lemma CollapseRooted(n: string)
    requires |n| > 0 && n[0] == '/' && NoDoubleSlash(n)
    ensures CollapseSlashes("/" + n) == n
  {
    var t := n[1..];
    assert NoDoubleSlash(t) by {
      forall i | 0 <= i < |t| - 1
        ensures !(t[i] == '/' && t[i + 1] == '/')
      {
        assert t[i] == n[i + 1] && t[i + 1] == n[i + 2];
      }
    }
    assert ("/" + n)[2..] == t;
    assert !NoDoubleSlash("/" + n) by {
      assert ("/" + n)[0] == '/' && ("/" + n)[1] == '/';
    }
    ReplaceIdentity(t);
    assert ReplaceDoubleSlashes("/" + n) == "/" + t;
    assert "/" + t == n;
    CollapseIdentity(n);
  }

  /** Without a base path, normalizing twice is normalizing once. */
  lemma NormalizeIdempotent(r: Router, s: string)
    requires BaseOf(r).None?
    ensures NormalizeString(r, NormalizeString(r, s)) == NormalizeString(r, s)
  {
    var n := NormalizeString(r, s);
    if !HasLowerScheme(s) {
      RootedHasNoLowerScheme(n);
      CollapseRooted(n);
      assert StripBase(n, BaseOf(r)) == n;
      if n == "/" {
        assert TrimFinalSlash(n) == "";
      } else {
        assert TrimFinalSlash(n) == n;
      }
    }
  }

  /**
   * Under a base path, a URL that starts with it normalizes like its
   * base-relative remainder does with no request at all.
   */
  lemma NormalizeUnderBase(r: Router, s: string)
    requires BaseOf(r).Some? && StartsWith(s, BaseOf(r).value)
    requires !HasLowerScheme(s) && !HasLowerScheme(s[|BaseOf(r).value|..])
    ensures NormalizeString(r, s) == NormalizeString(r.(requests := []), s[|BaseOf(r).value|..])
  {
    var rest := s[|BaseOf(r).value|..];
    assert BaseOf(r.(requests := [])).None?;
    assert StripBase(rest, None) == rest;
  }

  /**
   * The base is removed only as a case-sensitive prefix: a URL holding the
   * base in another case, or elsewhere, normalizes as if there were no request.
   */
  lemma NormalizeKeepsUnprefixed(r: Router, s: string)
    requires BaseOf(r).Some? && !StartsWith(s, BaseOf(r).value)
    ensures NormalizeString(r, s) == NormalizeString(r.(requests := []), s)
  {
    assert BaseOf(r.(requests := [])).None?;
  }

  /** One pass never brings in a character other than `/`. */
  lemma {:induction false} ReplaceKeepsOut(s: string, c: char)
    requires c != '/' && c !in s
    ensures c !in ReplaceDoubleSlashes(s)
    decreases |s|
  {
    if |s| >= 2 {
      if s[0] == '/' && s[1] == '/' {
        assert c !in s[2..];
        ReplaceKeepsOut(s[2..], c);
      } else {
        assert c !in s[1..];
        ReplaceKeepsOut(s[1..], c);
      }
    }
  }

  /** Collapsing never brings in a character other than `/`. */
  lemma {:induction false} CollapseKeepsOut(s: string, c: char)
    requires c != '/' && c !in s
    ensures c !in CollapseSlashes(s)
    decreases |s|
  {
    if !NoDoubleSlash(s) {
      ReplaceShrinks(s);
      ReplaceKeepsOut(s, c);
      CollapseKeepsOut(ReplaceDoubleSlashes(s), c);
    }
  }

  /** Without a newline in the URL the code as written and the intended one agree. */
  lemma AsWrittenAgreesWithoutNewline(r: Router, s: string)
    requires '\n' !in s
    ensures NormalizeStringAsWritten(r, s) == NormalizeString(r, s)
  {
    if !HasLowerScheme(s) {
      var x := StripBase(s, BaseOf(r));
      assert '\n' !in x;
      assert '\n' !in "/" + x;
      var t := CollapseSlashes("/" + x);
      CollapseKeepsOut("/" + x, '\n');
      assert !EndsWith(t, "/\n") by {
        if |t| >= 2 {
          assert t[|t| - 1] in t;
        }
      }
    }
  }

  /**
   * The discrepancy: for the one-character URL "\n" the code as written
   * removes the slash it has just prepended and returns an unrooted "\n";
   * the intended removal returns "/\n".
   */
  lemma NewlineLosesRoot(r: Router, s: string)
    requires BaseOf(r).None? && s == "\n"
    ensures NormalizeStringAsWritten(r, s) == "\n"
    ensures NormalizeString(r, s) == "/\n"
  {
    assert !HasLowerScheme(s) by {
      assert !LowerOrDash(s[0]);
    }
    assert StripBase(s, BaseOf(r)) == s;
    var t := "/" + s;
    NewlineCollapse(t);
    NewlineTrims(t);
  }

  /**
   * As written, normalizing is not idempotent: with no base path
   * "/a/\n/" normalizes to "/a/\n", and that in turn to "/a\n".
   */
  lemma NotIdempotentAsWritten(r: Router, s: string)
    requires BaseOf(r).None? && s == "/a/\n/"
    ensures NormalizeStringAsWritten(r, s) == "/a/\n"
    ensures NormalizeStringAsWritten(r, NormalizeStringAsWritten(r, s)) == "/a\n"
  {
    var n := "/a/\n";
    RootedHasNoLowerScheme(s);
    RootedHasNoLowerScheme(n);
    assert NoDoubleSlash(s) by {
      assert s[0] == '/' && s[1] == 'a' && s[2] == '/' && s[3] == '\n' && s[4] == '/';
    }
    CollapseRooted(s);
    assert TrimFinalSlashAsWritten(s) == n by {
      assert EndsWith(s, "/");
      assert s[..|s| - 1] == n;
    }
    assert !Empty(Str(n));
    assert NoDoubleSlash(n) by {
      assert n[0] == '/' && n[1] == 'a' && n[2] == '/' && n[3] == '\n';
    }
    CollapseRooted(n);
    assert TrimFinalSlashAsWritten(n) == "/a\n" by {
      assert EndsWith(n, "/\n") && !EndsWith(n, "/");
      assert n[..|n| - 2] + "\n" == "/a\n";
    }
    assert !Empty(Str("/a\n"));
  }

  lemma NewlineCollapse(t: string)
    requires t == "/\n"
    ensures CollapseSlashes(t) == t
  {
    assert NoDoubleSlash(t);
    CollapseIdentity(t);
  }

  lemma NewlineTrims(t: string)
    requires t == "/\n"
    ensures TrimFinalSlashAsWritten(t) == "\n" && !Empty(Str("\n"))
    ensures TrimFinalSlash(t) == t && !Empty(Str(t))
  {
    assert EndsWith(t, "/\n") && !EndsWith(t, "/");
    assert t[..|t| - 2] + "\n" == "\n";
  }
}

=== FILE: parse.dfy ===
/**
 * `Router::parse`: rooting the URL, dropping the query string, stripping
 * the extension, delegating to the route collection and post-processing
 * its parameters (prefixed action names, the parsed extension).
 */
module Parsing {
  import opened Results
  import opened PhpValue
  import opened PhpString
  import opened RouterState
  import opened Extension

  predicate NoQuestionMark(s: string) {
    forall i :: 0 <= i < |s| ==> s[i] != '?'
  }

  /**
   * A leading `/` is added to a truthy URL that lacks one (so "0" and "" stay
   * as they are), then everything from the first `?` on is dropped.
   */
  function RootPath(url: string): (p: string)
    ensures NoQuestionMark(p)
    ensures Truthy(Str(url)) ==> StartsWith(p, "/")
    ensures NoQuestionMark(url) && StartsWith(url, "/") ==> p == url
  {
    var rooted := if Truthy(Str(url)) && !StartsWith(url, "/") then "/" + url else url;
    match StrPos(rooted, "?")
    case None =>
      assert forall i :: 0 <= i < |rooted| ==> rooted[i] != '?' by {
        forall i | 0 <= i < |rooted| ensures rooted[i] != '?' {
          assert !OccursAt(rooted, "?", i);
          assert rooted[i..i + 1] == [rooted[i]];
        }
      }
      rooted
    case Some(k) =>
      assert forall i :: 0 <= i < k ==> rooted[i] != '?' by {
        forall i | 0 <= i < k ensures rooted[i] != '?' {
          assert !OccursAt(rooted, "?", i);
          assert rooted[i..i + 1] == [rooted[i]];
        }
      }
      assert rooted[k] == '?' by { assert rooted[k..k + 1] == "?"; }
      assert Truthy(Str(url)) ==> k > 0;
      rooted[..k]
  }

  /**
   * The path handed to the route collection: no query string, and rooted
   * unless a case-mismatched whitelist entry emptied it.
   */
  function CollectionPath(r: Router, url: string): (p: string)
    ensures NoQuestionMark(p)
    ensures Truthy(Str(url)) ==> p == "" || StartsWith(p, "/")
    ensures p == "" && Truthy(Str(url)) ==> ParseExtension(r, RootPath(url)).ext.Some?
  {
    var root := RootPath(url);
    var split := ParseExtension(r, root);
    PrefixOfRoot(root, split.url);
    split.url
  }

  /** A prefix of a rooted path without `?` has no `?` and, unless empty, is rooted. */
  lemma PrefixOfRoot(root: string, u: string)
    requires NoQuestionMark(root) && |u| <= |root| && u == root[..|u|]
    ensures NoQuestionMark(u)
    ensures StartsWith(root, "/") && u != "" ==> StartsWith(u, "/")
  {
    assert forall i :: 0 <= i < |u| ==> u[i] == root[i];
  }

  /**
   * What `parse` does with the collection's result: with a prefix, the action
   * becomes `prefix_action`; a non-empty parsed extension is added only when
   * the route did not set `ext`. Every other parameter is the collection's.
   */
  function PrefixAndExtension(routed: Params, ext: Option<string>): (out: Params)
    ensures Isset(routed, "prefix") ==>
              Get(out, "action") == Str(ToStr(routed.named["prefix"]) + "_" + ToStr(Get(routed, "action")))
    ensures !Isset(routed, "prefix") ==> Get(out, "action") == Get(routed, "action")
    ensures ext.Some? && Truthy(Str(ext.value)) && !Isset(routed, "ext") ==> Get(out, "ext") == Str(ext.value)
    ensures !(ext.Some? && Truthy(Str(ext.value)) && !Isset(routed, "ext")) ==> Get(out, "ext") == Get(routed, "ext")
    ensures out.positional == routed.positional
    ensures out.named.Keys - {"action", "ext"} == routed.named.Keys - {"action", "ext"}
    ensures forall k :: k in routed.named && k != "action" && k != "ext" ==> Get(out, k) == routed.named[k]
  {
    var prefixed :=
      if Isset(routed, "prefix")
      then Set(routed, "action", Str(ToStr(routed.named["prefix"]) + "_" + ToStr(Get(routed, "action"))))
      else routed;
    if ext.Some? && Truthy(Str(ext.value)) && !Isset(prefixed, "ext")
    then Set(prefixed, "ext", Str(ext.value))
    else prefixed
  }

  /**
   * `parse($url)`: the route collection parses `CollectionPath(url)`; a
   * prefixed route's action is renamed and a parsed extension is filled in.
   */
  function Parse(r: Router, url: string, c: Collection): (out: Params)
    ensures var routed := c.parseUrl(r.routes, CollectionPath(r, url));
            && (Isset(routed, "prefix") ==>
                  Get(out, "action") == Str(ToStr(routed.named["prefix"]) + "_" + ToStr(Get(routed, "action"))))
            && (!Isset(routed, "prefix") ==> Get(out, "action") == Get(routed, "action"))
            && out.positional == routed.positional
            && (forall k :: k in routed.named && k != "action" && k != "ext" ==> Get(out, k) == routed.named[k])
    ensures var routed := c.parseUrl(r.routes, CollectionPath(r, url));
            var ext := ParseExtension(r, RootPath(url)).ext;
            if ext.Some? && Truthy(Str(ext.value)) && !Isset(routed, "ext")
            then Get(out, "ext") == Str(ext.value)
            else Get(out, "ext") == Get(routed, "ext")
  {
    PrefixAndExtension(c.parseUrl(r.routes, CollectionPath(r, url)), ParseExtension(r, RootPath(url)).ext)
  }

  /** With extension parsing off the collection sees the rooted, query-free URL itself. */
  lemma ParseWithoutExtensions(r: Router, url: string)
    requires !r.parseExtensions
    ensures CollectionPath(r, url) == RootPath(url)
  {
  }
}

=== FILE: php_string.dfy ===
/**
 * The PHP string primitives the router is built from: `strpos`, prefix
 * and suffix tests, `str_replace('//', '/', …)`, `rtrim(…, '/')`,
 * ASCII case folding for `strcasecmp`/`stristr`, and character classes.
 */
module PhpString {
  import opened Results

  predicate StartsWith(s: string, p: string) {
    |p| <= |s| && s[..|p|] == p
  }

  predicate EndsWith(s: string, p: string) {
    |p| <= |s| && s[|s| - |p|..] == p
  }

  /** `a + b + c + "/" + s` starts with `a` and with `a + b`, and ends with `/` and `s`. */
  lemma JoinedPathEnds(a: string, b: string, c: string, s: string)
    ensures var out := a + b + c + "/" + s;
            StartsWith(out, a) && StartsWith(out, a + b) && EndsWith(out, "/" + s)
  {
    var out := a + b + c + "/" + s;
    assert out[..|a|] == a;
    assert out[..|a + b|] == a + b;
    assert out[|out| - |"/" + s|..] == "/" + s;
  }

  /** `p` occurs in `s` starting at index `i`. */
  predicate OccursAt(s: string, p: string, i: int) {
    0 <= i && i + |p| <= |s| && s[i..i + |p|] == p
  }

  function StrPosFrom(s: string, p: string, i: nat): (r: Option<nat>)
    ensures r.Some? ==> i <= r.value && OccursAt(s, p, r.value)
    ensures r.Some? ==> forall j :: i <= j < r.value ==> !OccursAt(s, p, j)
    ensures r.None? ==> forall j :: i <= j ==> !OccursAt(s, p, j)
    decreases |s| - i
  {
    if i + |p| > |s| then None
    else if s[i..i + |p|] == p then Some(i)
    else StrPosFrom(s, p, i + 1)
  }

  /** `strpos($s, $p)`: the first occurrence of `p` in `s`, or false. */
  function StrPos(s: string, p: string): (r: Option<nat>)
    ensures r.Some? ==> OccursAt(s, p, r.value)
    ensures r.Some? ==> forall j :: 0 <= j < r.value ==> !OccursAt(s, p, j)
    ensures r.None? ==> forall j :: !OccursAt(s, p, j)
  {
    StrPosFrom(s, p, 0)
  }

  predicate Contains(s: string, p: string) {
    StrPos(s, p).Some?
  }

  /** `substr($s, 0, strpos($s, $p))`: a missing `p` gives length false, hence "". */
  function CutBefore(s: string, p: string): (r: string)
    ensures StrPos(s, p).Some? ==> r == s[..StrPos(s, p).value]
    ensures StrPos(s, p).None? ==> r == ""
  {
    match StrPos(s, p)
    case None => ""
    case Some(i) => s[..i]
  }

  /** No two adjacent slashes. */
  predicate NoDoubleSlash(s: string) {
    forall i :: 0 <= i < |s| - 1 ==> !(s[i] == '/' && s[i + 1] == '/')
  }

  /** One left-to-right pass of `str_replace('//', '/', $s)`. */
  function ReplaceDoubleSlashes(s: string): string
    decreases |s|
  {
    if |s| < 2 then s
    else if s[0] == '/' && s[1] == '/' then "/" + ReplaceDoubleSlashes(s[2..])
    else [s[0]] + ReplaceDoubleSlashes(s[1..])
  }

  /** A single pass never lengthens the string. */
  lemma {:induction false} ReplaceNoLonger(s: string)
    ensures |ReplaceDoubleSlashes(s)| <= |s|
    decreases |s|
  {
    if |s| < 2 {
    } else if s[0] == '/' && s[1] == '/' {
      ReplaceNoLonger(s[2..]);
    } else {
      ReplaceNoLonger(s[1..]);
    }
  }

  /** A pass over a string without `//` leaves it as it is. */
  lemma {:induction false} ReplaceIdentity(s: string)
    requires NoDoubleSlash(s)
    ensures ReplaceDoubleSlashes(s) == s
    decreases |s|
  {
    if |s| >= 2 {
      assert !(s[0] == '/' && s[1] == '/');
      assert NoDoubleSlash(s[1..]) by {
        forall i | 0 <= i < |s[1..]| - 1
          ensures !(s[1..][i] == '/' && s[1..][i + 1] == '/')
        {
          assert s[1..][i] == s[i + 1] && s[1..][i + 1] == s[i + 2];
        }
      }
      ReplaceIdentity(s[1..]);
      assert [s[0]] + s[1..] == s;
    }
  }

  /** Dropping the first character keeps a string free of `//`. */
  lemma NoDoubleSlashTail(x: string)
    requires |x| > 0 && NoDoubleSlash(x)
    ensures NoDoubleSlash(x[1..])
  {
    forall i | 0 <= i < |x| - 2 ensures !(x[1..][i] == '/' && x[1..][i + 1] == '/') {
      assert x[1..][i] == x[i + 1] && x[1..][i + 1] == x[i + 2];
    }
  }

  /** A pass keeps a first character that does not start `//`. */
  lemma ReplaceHead(s: string)
    requires |s| >= 2 && !(s[0] == '/' && s[1] == '/')
    ensures ReplaceDoubleSlashes(s) == [s[0]] + ReplaceDoubleSlashes(s[1..])
  {
  }

  /** A pass replaces a leading `//` by one slash. */
  lemma ReplaceDoubleHead(s: string)
    requires |s| >= 2 && s[0] == '/' && s[1] == '/'
    ensures ReplaceDoubleSlashes(s) == "/" + ReplaceDoubleSlashes(s[2..])
  {
  }

  /** A pass goes through a prefix without `//` that does not end in `/` unchanged. */
  lemma {:induction false} ReplaceAfterClean(x: string, y: string)
    requires NoDoubleSlash(x) && (|x| == 0 || x[|x| - 1] != '/')
    ensures ReplaceDoubleSlashes(x + y) == x + ReplaceDoubleSlashes(y)
    decreases |x|
  {
    if |x| == 0 {
      assert x + y == y;
    } else if |x| == 1 && |y| == 0 {
      assert x + y == x;
    } else {
      var t := x[1..];
      NoDoubleSlashTail(x);
      ReplaceAfterClean(t, y);
      var s := x + y;
      assert s[1..] == t + y;
      assert s[0] == x[0];
      assert !(s[0] == '/' && s[1] == '/') by {
        if |x| >= 2 {
          assert s[1] == x[1];
        }
      }
      ReplaceHead(s);
      assert [x[0]] + t == x;
      assert [x[0]] + (t + ReplaceDoubleSlashes(y)) == x + ReplaceDoubleSlashes(y);
    }
  }

  /** A pass over a string that holds `//` strictly shortens it. */
  lemma {:induction false} ReplaceShrinks(s: string)
    requires !NoDoubleSlash(s)
    ensures |ReplaceDoubleSlashes(s)| < |s|
    decreases |s|
  {
    var i :| 0 <= i < |s| - 1 && s[i] == '/' && s[i + 1] == '/';
    if s[0] == '/' && s[1] == '/' {
      ReplaceNoLonger(s[2..]);
    } else {
      assert i >= 1;
      assert s[1..][i - 1] == '/' && s[1..][i] == '/';
      ReplaceShrinks(s[1..]);
    }
  }

  /** A pass keeps a leading slash. */
  lemma ReplaceKeepsLeadingSlash(s: string)
    ensures |s| > 0 && s[0] == '/' ==> |ReplaceDoubleSlashes(s)| > 0 && ReplaceDoubleSlashes(s)[0] == '/'
  {
  }

  /** `while (strpos($s, '//') !== false) $s = str_replace('//', '/', $s);` */
  function CollapseSlashes(s: string): (r: string)
    ensures NoDoubleSlash(r)
    ensures |r| <= |s|
    ensures |s| > 0 && s[0] == '/' ==> |r| > 0 && r[0] == '/'
    decreases |s|
  {
    if NoDoubleSlash(s) then s
    else
      ReplaceShrinks(s);
      ReplaceKeepsLeadingSlash(s);
      CollapseSlashes(ReplaceDoubleSlashes(s))
  }

  /** Collapsing a string that already has no `//` changes nothing. */
  lemma CollapseIdentity(s: string)
    requires NoDoubleSlash(s)
    ensures CollapseSlashes(s) == s
  {
  }

  /** `rtrim($s, '/')`: every trailing slash removed. */
  function RTrimSlashes(s: string): (r: string)
    ensures |r| <= |s| && r == s[..|r|]
    ensures |r| == 0 || r[|r| - 1] != '/'
    ensures forall i :: |r| <= i < |s| ==> s[i] == '/'
    decreases |s|
  {
    if |s| > 0 && s[|s| - 1] == '/' then RTrimSlashes(s[..|s| - 1]) else s
  }

  function LowerChar(c: char): char {
    if 'A' <= c <= 'Z' then ((c as int) + 32) as char else c
  }

  /** ASCII lower-casing, as PHP's case-insensitive comparisons do it. */
  function Lower(s: string): (r: string)
    ensures |r| == |s|
    ensures forall i :: 0 <= i < |s| ==> r[i] == LowerChar(s[i])
  {
    seq(|s|, i requires 0 <= i < |s| => LowerChar(s[i]))
  }

  /** `strcasecmp($a, $b) === 0`. */
  predicate CaseEq(a: string, b: string) {
    Lower(a) == Lower(b)
  }

  /** `stristr($s, $p) !== false` for a non-empty `p`. */
  predicate ContainsIgnoringCase(s: string, p: string) {
    Contains(Lower(s), Lower(p))
  }

  predicate IsLowerLetter(c: char) {
    'a' <= c <= 'z'
  }

  predicate IsLetter(c: char) {
    IsLowerLetter(c) || 'A' <= c <= 'Z'
  }

  predicate IsDigit(c: char) {
    '0' <= c <= '9'
  }

  /** The regular-expression class `[0-9a-zA-Z]`. */
  predicate IsAlnum(c: char) {
    IsLetter(c) || IsDigit(c)
  }

  predicate IsAlnumString(s: string) {
    forall i :: 0 <= i < |s| ==> IsAlnum(s[i])
  }

  /** Length of the longest prefix of `s` whose characters are all in `cls`. */
  function LeadingRun(s: string, cls: char -> bool): (k: nat)
    ensures k <= |s|
    ensures forall i :: 0 <= i < k ==> cls(s[i])
    ensures k < |s| ==> !cls(s[k])
    decreases |s|
  {
    if |s| > 0 && cls(s[0]) then 1 + LeadingRun(s[1..], cls) else 0
  }

  /** Length of the longest suffix of `s` made of `[0-9a-zA-Z]`. */
  function AlnumSuffix(s: string): (k: nat)
    ensures k <= |s|
    ensures forall i :: |s| - k <= i < |s| ==> IsAlnum(s[i])
    ensures k < |s| ==> !IsAlnum(s[|s| - 1 - k])
    decreases |s|
  {
    if |s| > 0 && IsAlnum(s[|s| - 1]) then 1 + AlnumSuffix(s[..|s| - 1]) else 0
  }
}

=== FILE: php_value.dfy ===
/**
 * The slice of PHP's value model the router relies on: scalars, ordered
 * arrays, `empty()`/`isset()` truthiness, `+=` and `array_merge`, and
 * string conversion.
 */
module PhpValue {

  /** A PHP value as it appears in routing parameters. */
  datatype Value =
    | Null
    | Bool(b: bool)
    | Int(i: int)
    | Str(s: string)
    | Arr(a: Params)

  /**
   * A PHP array: string keys in `named`, integer keys as the ordered
   * `positional` list (integer keys 0, 1, 2, ... in insertion order).
   */
  datatype Params = Params(named: map<string, Value>, positional: seq<Value>)

  const NoParams: Params := Params(map[], [])

  /** PHP `empty()` on a value. */
  predicate Empty(v: Value) {
    match v
    case Null => true
    case Bool(b) => !b
    case Int(i) => i == 0
    case Str(s) => s == "" || s == "0"
    case Arr(a) => a.named == map[] && a.positional == []
  }

  /** A value that converts to boolean `true`. */
  predicate Truthy(v: Value) {
    !Empty(v)
  }

  /** `$p[$k]`, with an absent key reading as null. */
  function Get(p: Params, k: string): (v: Value)
    ensures k !in p.named ==> v == Null
    ensures k in p.named ==> v == p.named[k]
  {
    if k in p.named then p.named[k] else Null
  }

  /** PHP `isset($p[$k])`: the key is present and not null. */
  predicate Isset(p: Params, k: string) {
    k in p.named && p.named[k] != Null
  }

  /** `$p[$k] = $v`. */
  function Set(p: Params, k: string, v: Value): (r: Params)
    ensures r.named.Keys == p.named.Keys + {k} && r.named[k] == v
    ensures forall j :: j in p.named && j != k ==> j in r.named && r.named[j] == p.named[j]
    ensures r.positional == p.positional
  {
    p.(named := p.named[k := v])
  }

  /** `unset($p[$k])`. */
  function Unset(p: Params, k: string): (r: Params)
    ensures r.named.Keys == p.named.Keys - {k}
    ensures forall j :: j in r.named ==> r.named[j] == p.named[j]
    ensures r.positional == p.positional
  {
    p.(named := p.named - {k})
  }

  /** `$p += array($k => $v)`: adds the key only when it is absent (a null value counts as present). */
  function AddMissing(p: Params, k: string, v: Value): (r: Params)
    ensures k in r.named && r.named[k] == (if k in p.named then p.named[k] else v)
    ensures r.named.Keys == p.named.Keys + {k}
    ensures forall j :: j in p.named ==> r.named[j] == p.named[j]
    ensures r.positional == p.positional
  {
    if k in p.named then p else Set(p, k, v)
  }

  /** `array_merge($a, $b)`: string keys of `b` win, integer keys are renumbered `a` then `b`. */
  function Merge(a: Params, b: Params): (r: Params)
    ensures r.named.Keys == a.named.Keys + b.named.Keys
    ensures forall k :: k in b.named ==> r.named[k] == b.named[k]
    ensures forall k :: k in a.named && k !in b.named ==> r.named[k] == a.named[k]
    ensures r.positional == a.positional + b.positional
  {
    Params(a.named + b.named, a.positional + b.positional)
  }

  /** Decimal digits of a natural number. */
  function NatToString(n: nat): (r: string)
    ensures |r| > 0
    ensures forall i :: 0 <= i < |r| ==> '0' <= r[i] <= '9'
    decreases n
  {
    var d := [(('0' as int) + n % 10) as char];
    if n < 10 then d else NatToString(n / 10) + d
  }

  /** PHP's integer-to-string conversion. */
  function IntToString(i: int): (r: string)
    ensures |r| > 0
  {
    if i < 0 then "-" + NatToString(-i) else NatToString(i)
  }

  /** PHP's string conversion, as used by `.` concatenation. */
  function ToStr(v: Value): string {
    match v
    case Null => ""
    case Bool(b) => if b then "1" else ""
    case Int(i) => IntToString(i)
    case Str(s) => s
    case Arr(_) => "Array"
  }
}

=== FILE: request_stack.dfy ===
/**
 * The request stack: `setRequestInfo` pushes, `popRequest` pops,
 * `getRequest` reads the top (the current request) or the bottom
 * (the original request).
 */
module RequestStack {
  import opened Results
  import opened PhpValue
  import opened RouterState

  /** `setRequestInfo($request)` for a request object. */
  function SetRequestInfo(r: Router, req: Request): (r': Router)
    ensures r'.requests == r.requests + [req]
    ensures r' == r.(requests := r'.requests)
  {
    r.(requests := r.requests + [req])
  }

  /**
   * The parameters `setRequestInfo` gives a request built from an array:
   * `controller` and `action` default to false and `plugin` to null.
   */
  function PadRequestParams(p: Params): (q: Params)
    ensures q.named.Keys == p.named.Keys + {"controller", "action", "plugin"}
    ensures forall k :: k in p.named ==> q.named[k] == p.named[k]
    ensures "controller" !in p.named ==> q.named["controller"] == Bool(false)
    ensures "action" !in p.named ==> q.named["action"] == Bool(false)
    ensures "plugin" !in p.named ==> q.named["plugin"] == Null
    ensures q.positional == p.positional
  {
    AddMissing(AddMissing(AddMissing(p, "controller", Bool(false)), "action", Bool(false)), "plugin", Null)
  }

  /** `popRequest()`: removes and returns the top request, or null on an empty stack. */
  function PopRequest(r: Router): (res: (Router, Option<Request>))
    ensures |r.requests| == 0 ==> res.1 == None && res.0 == r
    ensures |r.requests| > 0 ==> res.1 == Some(r.requests[|r.requests| - 1])
    ensures |r.requests| > 0 ==> res.0 == r.(requests := r.requests[..|r.requests| - 1])
  {
    if |r.requests| == 0 then (r, None)
    else (r.(requests := r.requests[..|r.requests| - 1]), Some(r.requests[|r.requests| - 1]))
  }

  /** `getRequest($current)`: the top of the stack when `current`, otherwise the first request. */
  function GetRequest(r: Router, current: bool): (res: Option<Request>)
    ensures res.None? <==> |r.requests| == 0
    ensures res.Some? ==> res.value in r.requests
    ensures res.Some? && current ==> res.value == r.requests[|r.requests| - 1]
    ensures res.Some? && !current ==> res.value == r.requests[0]
  {
    if |r.requests| == 0 then None
    else if current then Some(r.requests[|r.requests| - 1])
    else Some(r.requests[0])
  }

  /** Popping right after a push returns the pushed request and restores the stack. */
  lemma PopUndoesPush(r: Router, req: Request)
    ensures PopRequest(SetRequestInfo(r, req)) == (r, Some(req))
  {
    assert (r.requests + [req])[..|r.requests|] == r.requests;
  }

  /**
   * A nested request becomes the current one while the original request
   * stays at the bottom of the stack.
   */
  lemma {:induction false} NestedPushKeepsOriginal(r: Router, req: Request)
    ensures GetRequest(SetRequestInfo(r, req), true) == Some(req)
    ensures |r.requests| > 0 ==> GetRequest(SetRequestInfo(r, req), false) == GetRequest(r, false)
    ensures |r.requests| == 0 ==> GetRequest(SetRequestInfo(r, req), false) == Some(req)
  {
    var s := SetRequestInfo(r, req);
    assert s.requests[|s.requests| - 1] == req;
    if |r.requests| > 0 {
      assert s.requests[0] == r.requests[0];
    }
  }

  /** Two nested pushes are undone by two pops in last-in, first-out order. */
  lemma {:induction false} LastInFirstOut(r: Router, outer: Request, inner: Request)
    ensures var (s1, a) := PopRequest(SetRequestInfo(SetRequestInfo(r, outer), inner));
            var (s2, b) := PopRequest(s1);
            a == Some(inner) && b == Some(outer) && s2 == r
  {
    PopUndoesPush(SetRequestInfo(r, outer), inner);
    PopUndoesPush(r, outer);
  }
}

=== FILE: resources.dfy ===
/**
 * `mapResources`: the REST routes connected for each controller, one per
 * entry of the resource map, in map order.
 */
module Resources {
  import opened Results
  import opened PhpValue
  import opened RouterState
  import opened Registration

  /** The template tail of an entry: `/:id` exactly when the entry needs an id. */
  function IdSuffix(e: ResourceEntry): string {
    if e.id then "/:id" else ""
  }

  /** The defaults of the route connected for entry `e` of a controller. */
  function ResourceDefaults(plugin: string, urlName: string, e: ResourceEntry): Params {
    Params(map["plugin" := Str(plugin), "controller" := Str(urlName),
               "action" := Str(e.action), "[method]" := Str(e.httpMethod)], [])
  }

  /** The options of every resource route: `id` pattern, and `id` passed positionally. */
  function ResourceOptions(idPattern: Value): Params {
    Params(map["id" := idPattern, "pass" := Arr(Params(map[], [Str("id")]))], [])
  }

  /**
   * What a route connected for entry `e` of a controller carries. A key of
   * the defaults is only guaranteed when its value is not empty: a
   * registered prefix of the same name could otherwise remove it.
   */
  predicate IsResourceRoute(route: Route, template: string, plugin: string, urlName: string,
                            e: ResourceEntry, idPattern: Value, cls: string) {
    && route.template == template
    && route.options == ResourceOptions(idPattern)
    && route.routeClass == cls
    && route.defaults.Arr?
    && (Truthy(Str(plugin)) ==> Get(route.defaults.a, "plugin") == Str(plugin))
    && (Truthy(Str(urlName)) ==> Get(route.defaults.a, "controller") == Str(urlName))
    && (Truthy(Str(e.action)) ==> Get(route.defaults.a, "action") == Str(e.action))
    && (Truthy(Str(e.httpMethod)) ==> Get(route.defaults.a, "[method]") == Str(e.httpMethod))
  }

  /** None of the keys a resource route sets is a registered routing prefix. */
  predicate NoResourceKeyPrefix(prefixes: seq<string>) {
    "plugin" !in prefixes && "controller" !in prefixes && "action" !in prefixes && "[method]" !in prefixes
  }

  /**
   * With no resource key registered as a prefix, `connect` keeps a resource
   * route's defaults exactly as given and registers no new prefix.
   */
  lemma ResourceDefaultsKept(prefixes: seq<string>, plugin: string, urlName: string, e: ResourceEntry, idPattern: Value)
    requires NoResourceKeyPrefix(prefixes)
    ensures var d := ResourceDefaults(plugin, urlName, e);
            && RouteDefaults(prefixes, d, ResourceOptions(idPattern)) == d
            && RegisterPrefix(prefixes, d) == prefixes
  {
    var d := ResourceDefaults(plugin, urlName, e);
    forall j | 0 <= j < |prefixes|
      ensures !Isset(d, prefixes[j])
    {
      assert prefixes[j] in prefixes;
    }
    assert FirstPresentPrefix(prefixes, d).None?;
    assert !Isset(d, "prefix");
  }

  /** The defaults `connect` builds from a resource entry's keep every non-empty key and add no `redirect`. */
  lemma ResourceDefaultsSurvive(prefixes: seq<string>, plugin: string, urlName: string, e: ResourceEntry, idPattern: Value)
    ensures var d := RouteDefaults(prefixes, ResourceDefaults(plugin, urlName, e), ResourceOptions(idPattern));
            && "redirect" !in d.named
            && (Truthy(Str(plugin)) ==> Get(d, "plugin") == Str(plugin))
            && (Truthy(Str(urlName)) ==> Get(d, "controller") == Str(urlName))
            && (Truthy(Str(e.action)) ==> Get(d, "action") == Str(e.action))
            && (Truthy(Str(e.httpMethod)) ==> Get(d, "[method]") == Str(e.httpMethod))
  {
    var d := ResourceDefaults(plugin, urlName, e);
    var o := ResourceOptions(idPattern);
    assert d.named.Keys == {"plugin", "controller", "action", "[method]"};
    if Truthy(Str(plugin)) { TruthyDefaultKept(prefixes, d, o, "plugin"); }
    if Truthy(Str(urlName)) { TruthyDefaultKept(prefixes, d, o, "controller"); }
    if Truthy(Str(e.action)) { TruthyDefaultKept(prefixes, d, o, "action"); }
    if Truthy(Str(e.httpMethod)) { TruthyDefaultKept(prefixes, d, o, "[method]"); }
  }

  /** The route `connect` builds for one resource entry. */
  lemma ConnectResourceRoute(r: Router, template: string, plugin: string, urlName: string,
                             e: ResourceEntry, idPattern: Value)
    ensures var r' := ConnectAs(r, template, ResourceDefaults(plugin, urlName, e), ResourceOptions(idPattern), r.routeClass);
            && IsResourceRoute(r'.routes[|r.routes|], template, plugin, urlName, e, idPattern, r.routeClass)
            && (NoResourceKeyPrefix(r.prefixes) ==>
                  r'.routes[|r.routes|].defaults == Arr(ResourceDefaults(plugin, urlName, e)) && r'.prefixes == r.prefixes)
  {
    ResourceDefaultsSurvive(r.prefixes, plugin, urlName, e, idPattern);
    if NoResourceKeyPrefix(r.prefixes) {
      ResourceDefaultsKept(r.prefixes, plugin, urlName, e, idPattern);
    }
  }

  /** The templates of a list of routes. */
  function Templates(routes: seq<Route>): (ts: seq<string>)
    ensures |ts| == |routes|
    ensures forall i :: 0 <= i < |routes| ==> ts[i] == routes[i].template
  {
    seq(|routes|, i requires 0 <= i < |routes| => routes[i].template)
  }

  /** The defaults of a list of routes. */
  function DefaultsOf(routes: seq<Route>): (ds: seq<Value>)
    ensures |ds| == |routes|
    ensures forall i :: 0 <= i < |routes| ==> ds[i] == routes[i].defaults
  {
    seq(|routes|, i requires 0 <= i < |routes| => routes[i].defaults)
  }

  /** The defaults of one controller's routes, in map order. */
  function EntryDefaults(plugin: string, urlName: string, entries: seq<ResourceEntry>): (ds: seq<Value>)
    ensures |ds| == |entries|
    ensures forall k :: 0 <= k < |entries| ==> ds[k] == Arr(ResourceDefaults(plugin, urlName, entries[k]))
  {
    seq(|entries|, k requires 0 <= k < |entries| => Arr(ResourceDefaults(plugin, urlName, entries[k])))
  }

  /** The templates of one controller's routes, in map order. */
  function EntryTemplates(base: string, entries: seq<ResourceEntry>): (ts: seq<string>)
    ensures |ts| == |entries|
    ensures forall k :: 0 <= k < |entries| ==> ts[k] == base + IdSuffix(entries[k])
  {
    seq(|entries|, k requires 0 <= k < |entries| => base + IdSuffix(entries[k]))
  }

  /** Connects one route per entry, in order, for the controller at `base`. */
  function MapEntries(r: Router, entries: seq<ResourceEntry>, base: string, plugin: string,
                      urlName: string, idPattern: Value): (r': Router)
    ensures r'.resourceMap == r.resourceMap && r'.routeClass == r.routeClass
    ensures r'.resourceMapped == r.resourceMapped && r'.requests == r.requests
    ensures |r'.routes| == |r.routes| + |entries| && r'.routes[..|r.routes|] == r.routes
    decreases |entries|
  {
    if |entries| == 0 then r
    else
      var r1 := ConnectAs(r, base + IdSuffix(entries[0]), ResourceDefaults(plugin, urlName, entries[0]),
                          ResourceOptions(idPattern), r.routeClass);
      var rest := MapEntries(r1, entries[1..], base, plugin, urlName, idPattern);
      assert rest.routes[..|r.routes|] == rest.routes[..|r1.routes|][..|r.routes|];
      rest
  }

  /** `routes` are the routes connected for `entries`, one each, in order. */
  predicate ResourceRoutes(routes: seq<Route>, base: string, plugin: string, urlName: string,
                          entries: seq<ResourceEntry>, idPattern: Value, cls: string) {
    && |routes| == |entries|
    && forall k :: 0 <= k < |routes| ==>
         IsResourceRoute(routes[k], base + IdSuffix(entries[k]), plugin, urlName, entries[k], idPattern, cls)
  }

  lemma ResourceRoutesCons(route: Route, routes: seq<Route>, base: string, plugin: string, urlName: string,
                           entries: seq<ResourceEntry>, idPattern: Value, cls: string)
    requires |entries| > 0
    requires IsResourceRoute(route, base + IdSuffix(entries[0]), plugin, urlName, entries[0], idPattern, cls)
    requires ResourceRoutes(routes, base, plugin, urlName, entries[1..], idPattern, cls)
    ensures ResourceRoutes([route] + routes, base, plugin, urlName, entries, idPattern, cls)
  {
    forall k | 1 <= k < |entries|
      ensures IsResourceRoute(([route] + routes)[k], base + IdSuffix(entries[k]), plugin, urlName, entries[k], idPattern, cls)
    {
      assert ([route] + routes)[k] == routes[k - 1];
      assert entries[k] == entries[1..][k - 1];
    }
  }

  /** One controller's routes: one per entry, in map order, appended after the existing ones. */
  lemma {:induction false} MapEntriesAppends(r: Router, entries: seq<ResourceEntry>, base: string, plugin: string,
                                             urlName: string, idPattern: Value)
    ensures var r' := MapEntries(r, entries, base, plugin, urlName, idPattern);
            && |r'.routes| >= |r.routes|
            && r'.routes[..|r.routes|] == r.routes
            && ResourceRoutes(r'.routes[|r.routes|..], base, plugin, urlName, entries, idPattern, r.routeClass)
    decreases |entries|
  {
    if |entries| > 0 {
      var r1 := ConnectAs(r, base + IdSuffix(entries[0]), ResourceDefaults(plugin, urlName, entries[0]),
                          ResourceOptions(idPattern), r.routeClass);
      ConnectResourceRoute(r, base + IdSuffix(entries[0]), plugin, urlName, entries[0], idPattern);
      MapEntriesAppends(r1, entries[1..], base, plugin, urlName, idPattern);
      var rest := MapEntries(r1, entries[1..], base, plugin, urlName, idPattern);
      assert rest == MapEntries(r, entries, base, plugin, urlName, idPattern);
      TailSplit(r.routes, r1.routes, rest.routes);
      assert r1.routes[|r.routes|..] == [r1.routes[|r.routes|]];
      ResourceRoutesCons(r1.routes[|r.routes|], rest.routes[|r1.routes|..], base, plugin, urlName, entries, idPattern, r.routeClass);
    } else {
      assert r.routes[|r.routes|..] == [];
    }
  }

  /**
   * With no resource key registered as a prefix, one controller's routes
   * carry exactly the resource defaults, entry by entry, and the prefix
   * list is left as it was.
   */
  lemma {:induction false} MapEntriesDefaults(r: Router, entries: seq<ResourceEntry>, base: string, plugin: string,
                                              urlName: string, idPattern: Value)
    requires NoResourceKeyPrefix(r.prefixes)
    ensures var r' := MapEntries(r, entries, base, plugin, urlName, idPattern);
            && r'.prefixes == r.prefixes
            && DefaultsOf(r'.routes[|r.routes|..]) == EntryDefaults(plugin, urlName, entries)
    decreases |entries|
  {
    if |entries| > 0 {
      var r1 := ConnectAs(r, base + IdSuffix(entries[0]), ResourceDefaults(plugin, urlName, entries[0]),
                          ResourceOptions(idPattern), r.routeClass);
      ConnectResourceRoute(r, base + IdSuffix(entries[0]), plugin, urlName, entries[0], idPattern);
      MapEntriesDefaults(r1, entries[1..], base, plugin, urlName, idPattern);
      var rest := MapEntries(r1, entries[1..], base, plugin, urlName, idPattern);
      assert rest == MapEntries(r, entries, base, plugin, urlName, idPattern);
      TailSplit(r.routes, r1.routes, rest.routes);
      assert r1.routes[|r.routes|..] == [r1.routes[|r.routes|]];
      DefaultsCons(r1.routes[|r.routes|], rest.routes[|r1.routes|..]);
      EntryDefaultsCons(plugin, urlName, entries);
    } else {
      assert r.routes[|r.routes|..] == [];
    }
  }

  /** The URL name of a controller argument (`Plugin.Name` or `Name`). */
  function UrlName(name: string, f: Foreign): string {
    f.underscore(f.pluginSplit(name).1)
  }

  /** The plugin of a controller argument, underscored ("" when it names none). */
  function PluginOf(name: string, f: Foreign): string {
    f.underscore(f.pluginSplit(name).0)
  }

  /** The URL prefix in force for a controller: a plugin's own prefix unless one was given. */
  function NextPrefix(name: string, prefix: string, hasPrefix: bool, f: Foreign): string {
    var plugin := PluginOf(name, f);
    if Truthy(Str(plugin)) && !hasPrefix then "/" + plugin + "/" else prefix
  }

  /**
   * The templates `mapResources` connects, controller by controller and
   * entry by entry; the prefix chosen for a plugin controller stays in force
   * for the controllers after it.
   */
  function ResourceTemplates(names: seq<string>, prefix: string, hasPrefix: bool,
                             entries: seq<ResourceEntry>, f: Foreign): seq<string>
    decreases |names|
  {
    if |names| == 0 then []
    else
      var p := NextPrefix(names[0], prefix, hasPrefix, f);
      EntryTemplates(p + UrlName(names[0], f), entries) + ResourceTemplates(names[1..], p, hasPrefix, entries, f)
  }

  /** Every controller contributes one template per map entry. */
  lemma {:induction false} ResourceTemplatesCount(names: seq<string>, prefix: string, hasPrefix: bool,
                                                  entries: seq<ResourceEntry>, f: Foreign)
    ensures |ResourceTemplates(names, prefix, hasPrefix, entries, f)| == |names| * |entries|
    decreases |names|
  {
    if |names| > 0 {
      var p := NextPrefix(names[0], prefix, hasPrefix, f);
      ResourceTemplatesCount(names[1..], p, hasPrefix, entries, f);
      assert |entries| + (|names| - 1) * |entries| == |names| * |entries|;
    }
  }

  /** The URL names of the controllers, in argument order. */
  function UrlNames(names: seq<string>, f: Foreign): (us: seq<string>)
    ensures |us| == |names|
    ensures forall i :: 0 <= i < |names| ==> us[i] == UrlName(names[i], f)
  {
    seq(|names|, i requires 0 <= i < |names| => UrlName(names[i], f))
  }

  /** Every route carries the resource options and class. */
  predicate AllResourceOptions(routes: seq<Route>, idPattern: Value, cls: string) {
    forall i :: 0 <= i < |routes| ==> routes[i].options == ResourceOptions(idPattern) && routes[i].routeClass == cls
  }

  /** One controller's block of routes has the entry templates and the resource options. */
  lemma ResourceRoutesShape(routes: seq<Route>, base: string, plugin: string, urlName: string,
                            entries: seq<ResourceEntry>, idPattern: Value, cls: string)
    requires ResourceRoutes(routes, base, plugin, urlName, entries, idPattern, cls)
    ensures Templates(routes) == EntryTemplates(base, entries)
    ensures AllResourceOptions(routes, idPattern, cls)
  {
  }

  /**
   * Connects the resource routes of every controller in turn: routes are only
   * appended, and each controller's URL name is recorded, in argument order.
   */
  function MapControllers(r: Router, names: seq<string>, prefix: string, hasPrefix: bool,
                          idPattern: Value, f: Foreign): (r': Router)
    ensures r'.resourceMap == r.resourceMap && r'.routeClass == r.routeClass && r'.requests == r.requests
    ensures |r'.routes| >= |r.routes| && r'.routes[..|r.routes|] == r.routes
    ensures r'.resourceMapped == r.resourceMapped + UrlNames(names, f)
    decreases |names|
  {
    if |names| == 0 then
      assert r.resourceMapped + UrlNames(names, f) == r.resourceMapped;
      r
    else
      var p := NextPrefix(names[0], prefix, hasPrefix, f);
      var r2 := MapController(r, names[0], p, idPattern, f);
      var rest := MapControllers(r2, names[1..], p, hasPrefix, idPattern, f);
      TailSplit(r.routes, r2.routes, rest.routes);
      MappedStep(r.resourceMapped, names, f);
      rest
  }

  /** One controller's resource routes under path prefix `p`, and its URL name recorded. */
  function MapController(r: Router, name: string, p: string, idPattern: Value, f: Foreign): (r': Router)
    ensures r'.resourceMap == r.resourceMap && r'.routeClass == r.routeClass && r'.requests == r.requests
    ensures |r'.routes| >= |r.routes| && r'.routes[..|r.routes|] == r.routes
    ensures r'.resourceMapped == r.resourceMapped + [UrlName(name, f)]
  {
    var urlName := UrlName(name, f);
    var r1 := MapEntries(r, r.resourceMap, p + urlName, PluginOf(name, f), urlName, idPattern);
    r1.(resourceMapped := r1.resourceMapped + [urlName])
  }

  /** All controllers' routes, controller by controller, appended after the existing ones. */
  lemma {:induction false} MapControllersAppends(r: Router, names: seq<string>, prefix: string, hasPrefix: bool,
                                                 idPattern: Value, f: Foreign)
    ensures var r' := MapControllers(r, names, prefix, hasPrefix, idPattern, f);
            && |r'.routes| >= |r.routes|
            && Templates(r'.routes[|r.routes|..]) == ResourceTemplates(names, prefix, hasPrefix, r.resourceMap, f)
            && AllResourceOptions(r'.routes[|r.routes|..], idPattern, r.routeClass)
    decreases |names|
  {
    if |names| == 0 {
      assert r.routes[|r.routes|..] == [];
    } else {
      var p := NextPrefix(names[0], prefix, hasPrefix, f);
      var urlName := UrlName(names[0], f);
      var plugin := PluginOf(names[0], f);
      var r1 := MapEntries(r, r.resourceMap, p + urlName, plugin, urlName, idPattern);
      var r2 := r1.(resourceMapped := r1.resourceMapped + [urlName]);
      assert r2 == MapController(r, names[0], p, idPattern, f);
      var rest := MapControllers(r2, names[1..], p, hasPrefix, idPattern, f);
      assert rest == MapControllers(r, names, prefix, hasPrefix, idPattern, f);
      MapEntriesAppends(r, r.resourceMap, p + urlName, plugin, urlName, idPattern);
      MapControllersAppends(r2, names[1..], p, hasPrefix, idPattern, f);
      BlockThenRest(r.routes, r1.routes, rest.routes, p + urlName, plugin, urlName, r.resourceMap, idPattern, r.routeClass,
                    ResourceTemplates(names[1..], p, hasPrefix, r.resourceMap, f));
    }
  }

  /**
   * The defaults `mapResources` connects, controller by controller and entry
   * by entry: the controller's plugin and URL name, the entry's action and
   * HTTP method.
   */
  function ResourceDefaultsAll(names: seq<string>, entries: seq<ResourceEntry>, f: Foreign): seq<Value>
    decreases |names|
  {
    if |names| == 0 then []
    else EntryDefaults(PluginOf(names[0], f), UrlName(names[0], f), entries) + ResourceDefaultsAll(names[1..], entries, f)
  }

  /**
   * Controller `i`'s block of defaults sits between those of the
   * controllers before it and those after it.
   */
  lemma ResourceDefaultsBlock(names: seq<string>, entries: seq<ResourceEntry>, f: Foreign, i: nat)
    requires i < |names|
    ensures ResourceDefaultsAll(names, entries, f) ==
              ResourceDefaultsAll(names[..i], entries, f)
              + EntryDefaults(PluginOf(names[i], f), UrlName(names[i], f), entries)
              + ResourceDefaultsAll(names[i + 1..], entries, f)
  {
    var x := names[i];
    var later := names[i + 1..];
    assert names == names[..i] + ([x] + later);
    ResourceDefaultsConcat(names[..i], [x] + later, entries, f);
    assert ([x] + later)[0] == x && ([x] + later)[1..] == later;
  }

  /** The defaults of two lists of controllers, one after the other. */
  lemma {:induction false} ResourceDefaultsConcat(a: seq<string>, b: seq<string>, entries: seq<ResourceEntry>, f: Foreign)
    ensures ResourceDefaultsAll(a + b, entries, f) == ResourceDefaultsAll(a, entries, f) + ResourceDefaultsAll(b, entries, f)
    decreases |a|
  {
    if |a| == 0 {
      assert a + b == b;
    } else {
      assert (a + b)[0] == a[0] && (a + b)[1..] == a[1..] + b;
      ResourceDefaultsConcat(a[1..], b, entries, f);
    }
  }

  /** Every controller contributes one set of defaults per map entry. */
  lemma {:induction false} ResourceDefaultsCount(names: seq<string>, entries: seq<ResourceEntry>, f: Foreign)
    ensures |ResourceDefaultsAll(names, entries, f)| == |names| * |entries|
    decreases |names|
  {
    if |names| > 0 {
      ResourceDefaultsCount(names[1..], entries, f);
      assert |names| * |entries| == |entries| + (|names| - 1) * |entries|;
    }
  }

  /**
   * With no resource key registered as a prefix, all controllers' routes
   * carry exactly the resource defaults, and the prefix list is unchanged.
   */
  lemma {:induction false} MapControllersDefaults(r: Router, names: seq<string>, prefix: string, hasPrefix: bool,
                                                  idPattern: Value, f: Foreign)
    requires NoResourceKeyPrefix(r.prefixes)
    ensures var r' := MapControllers(r, names, prefix, hasPrefix, idPattern, f);
            && r'.prefixes == r.prefixes
            && DefaultsOf(r'.routes[|r.routes|..]) == ResourceDefaultsAll(names, r.resourceMap, f)
    decreases |names|
  {
    if |names| == 0 {
      assert r.routes[|r.routes|..] == [];
    } else {
      var p := NextPrefix(names[0], prefix, hasPrefix, f);
      var urlName := UrlName(names[0], f);
      var plugin := PluginOf(names[0], f);
      var r1 := MapEntries(r, r.resourceMap, p + urlName, plugin, urlName, idPattern);
      var r2 := r1.(resourceMapped := r1.resourceMapped + [urlName]);
      assert r2 == MapController(r, names[0], p, idPattern, f);
      var rest := MapControllers(r2, names[1..], p, hasPrefix, idPattern, f);
      assert rest == MapControllers(r, names, prefix, hasPrefix, idPattern, f);
      MapEntriesDefaults(r, r.resourceMap, p + urlName, plugin, urlName, idPattern);
      MapControllersDefaults(r2, names[1..], p, hasPrefix, idPattern, f);
      TailSplit(r.routes, r1.routes, rest.routes);
      DefaultsConcat(r1.routes[|r.routes|..], rest.routes[|r1.routes|..]);
    }
  }

  /** The routes after `a` are one controller's block followed by the later controllers' routes. */
  lemma BlockThenRest(a: seq<Route>, b: seq<Route>, c: seq<Route>, base: string, plugin: string, urlName: string,
                      entries: seq<ResourceEntry>,
                      idPattern: Value, cls: string, later: seq<string>)
    requires |a| <= |b| <= |c| && b[..|a|] == a && c[..|b|] == b
    requires ResourceRoutes(b[|a|..], base, plugin, urlName, entries, idPattern, cls)
    requires Templates(c[|b|..]) == later && AllResourceOptions(c[|b|..], idPattern, cls)
    ensures Templates(c[|a|..]) == EntryTemplates(base, entries) + later
    ensures AllResourceOptions(c[|a|..], idPattern, cls)
  {
    TailSplit(a, b, c);
    ResourceRoutesShape(b[|a|..], base, plugin, urlName, entries, idPattern, cls);
    TemplatesConcat(b[|a|..], c[|b|..]);
    AllResourceOptionsConcat(b[|a|..], c[|b|..], idPattern, cls);
  }

  /** Splitting the tail of an extension of an extension. */
  lemma TailSplit(a: seq<Route>, b: seq<Route>, c: seq<Route>)
    requires |a| <= |b| <= |c| && b[..|a|] == a && c[..|b|] == b
    ensures c[..|a|] == a
    ensures c[|a|..] == b[|a|..] + c[|b|..]
  {
    assert c[..|a|] == c[..|b|][..|a|];
  }

  /** Recording the first name, then the rest, records them all. */
  lemma MappedStep(mapped: seq<string>, names: seq<string>, f: Foreign)
    requires |names| > 0
    ensures (mapped + [UrlName(names[0], f)]) + UrlNames(names[1..], f) == mapped + UrlNames(names, f)
  {
    UrlNamesCons(names, f);
  }

  lemma UrlNamesCons(names: seq<string>, f: Foreign)
    requires |names| > 0
    ensures UrlNames(names, f) == [UrlName(names[0], f)] + UrlNames(names[1..], f)
  {
  }

  lemma DefaultsCons(route: Route, routes: seq<Route>)
    ensures DefaultsOf([route] + routes) == [route.defaults] + DefaultsOf(routes)
  {
  }

  lemma EntryDefaultsCons(plugin: string, urlName: string, entries: seq<ResourceEntry>)
    requires |entries| > 0
    ensures EntryDefaults(plugin, urlName, entries) ==
              [Arr(ResourceDefaults(plugin, urlName, entries[0]))] + EntryDefaults(plugin, urlName, entries[1..])
  {
  }

  lemma DefaultsConcat(a: seq<Route>, b: seq<Route>)
    ensures DefaultsOf(a + b) == DefaultsOf(a) + DefaultsOf(b)
  {
  }

  lemma TemplatesConcat(a: seq<Route>, b: seq<Route>)
    ensures Templates(a + b) == Templates(a) + Templates(b)
  {
  }

  lemma AllResourceOptionsConcat(a: seq<Route>, b: seq<Route>, idPattern: Value, cls: string)
    requires AllResourceOptions(a, idPattern, cls) && AllResourceOptions(b, idPattern, cls)
    ensures AllResourceOptions(a + b, idPattern, cls)
  {
    forall i | 0 <= i < |a + b|
      ensures (a + b)[i].options == ResourceOptions(idPattern) && (a + b)[i].routeClass == cls
    {
      if i >= |a| { assert (a + b)[i] == b[i - |a|]; }
    }
  }

  /**
   * `mapResources($controllers, $options)`: the `prefix` option defaults to
   * `/` and `id` to `ID|UUID`; returns the router and the list of
   * resource-mapped controllers.
   */
  function MapResources(r: Router, names: seq<string>, options: Params, f: Foreign): (res: (Router, seq<string>))
    ensures |res.0.routes| == |r.routes| + |names| * |r.resourceMap|
    ensures res.0.routes[..|r.routes|] == r.routes
    ensures Templates(res.0.routes[|r.routes|..]) ==
              ResourceTemplates(names, if "prefix" in options.named then ToStr(options.named["prefix"]) else "/",
                                Isset(options, "prefix"), r.resourceMap, f)
    ensures AllResourceOptions(res.0.routes[|r.routes|..],
              if "id" in options.named then options.named["id"] else Str(IdPattern + "|" + UuidPattern), r.routeClass)
    ensures res.1 == res.0.resourceMapped == r.resourceMapped + UrlNames(names, f)
    ensures NoResourceKeyPrefix(r.prefixes) ==>
              && res.0.prefixes == r.prefixes
              && DefaultsOf(res.0.routes[|r.routes|..]) == ResourceDefaultsAll(names, r.resourceMap, f)
  {
    var merged := Merge(Params(map["prefix" := Str("/"), "id" := Str(IdPattern + "|" + UuidPattern)], []), options);
    var prefix := ToStr(Get(merged, "prefix"));
    var idPattern := Get(merged, "id");
    assert prefix == if "prefix" in options.named then ToStr(options.named["prefix"]) else "/";
    assert idPattern == if "id" in options.named then options.named["id"] else Str(IdPattern + "|" + UuidPattern);
    var r' := MapControllers(r, names, prefix, Isset(options, "prefix"), idPattern, f);
    MapControllersAppends(r, names, prefix, Isset(options, "prefix"), idPattern, f);
    ResourceTemplatesCount(names, prefix, Isset(options, "prefix"), r.resourceMap, f);
    assert |Templates(r'.routes[|r.routes|..])| == |names| * |r.resourceMap|;
    if NoResourceKeyPrefix(r.prefixes) then
      MapControllersDefaults(r, names, prefix, Isset(options, "prefix"), idPattern, f);
      (r', r'.resourceMapped)
    else (r', r'.resourceMapped)
  }
}

=== FILE: results.dfy ===
/** Failure-carrying wrappers shared by the router model. */
module Results {

  /** PHP's `null` versus a present value. */
  datatype Option<+T> = None | Some(value: T)

  /** A value, or the exception the router would throw. */
  datatype Result<+T, +E> = Ok(value: T) | Err(error: E)
}

=== FILE: reverse.dfy ===
/**
 * `reverse()`: turns a parsed parameter array, or a request, back into
 * the array `url()` is called with, dropping the keys routing adds.
 */
module Reversal {
  import opened Results
  import opened PhpValue
  import opened RouterState
  import opened Generation

  /** The argument of `reverse()`: a request object, or a parameter array. */
  datatype ReverseArg = FromRequest(req: Request) | FromParams(p: Params)

  /** The keys routing and the framework add to parsed parameters. */
  const InternalKeys: set<string> := {"pass", "paging", "models", "url", "autoRender", "bare", "requested", "return", "_Token"}

  /** The parameters of the argument. */
  function ParamsOf(arg: ReverseArg): Params {
    match arg
    case FromRequest(req) => req.params
    case FromParams(p) => p
  }

  /** The query of the argument: a request's query, or the `url` entry of an array. */
  function QueryOf(arg: ReverseArg): Value {
    match arg
    case FromRequest(req) => req.query
    case FromParams(p) => Get(p, "url")
  }

  /** The passed arguments, an empty array when not set. */
  function PassOf(arg: ReverseArg): Value {
    if Isset(ParamsOf(arg), "pass") then ParamsOf(arg).named["pass"] else Arr(NoParams)
  }

  /** The query once its own `url` entry is removed. */
  function CleanQuery(arg: ReverseArg): Value {
    var q := QueryOf(arg);
    if q.Arr? then Arr(Unset(q.a, "url")) else q
  }

  /**
   * The array handed to `url()`: the parameters without the internal keys,
   * the passed arguments merged in, and the query under `?` when not empty.
   * Removing a key from a string query is a fatal error; a non-array `pass`
   * makes `array_merge` return null.
   */
  function ReverseInput(arg: ReverseArg): (res: Result<Value, RouterError>)
    ensures res.Err? <==> QueryOf(arg).Str?
    ensures res.Ok? && PassOf(arg).Arr? ==>
              && res.value.Arr?
              && res.value.a.positional == ParamsOf(arg).positional + PassOf(arg).a.positional
              && (forall k :: k in InternalKeys && k !in PassOf(arg).a.named ==> k !in res.value.a.named)
              && (forall k :: k in ParamsOf(arg).named && k !in InternalKeys && k !in PassOf(arg).a.named && k != "?" ==>
                    k in res.value.a.named && res.value.a.named[k] == ParamsOf(arg).named[k])
              && (forall k :: k in PassOf(arg).a.named && k != "?" ==> k in res.value.a.named && res.value.a.named[k] == PassOf(arg).a.named[k])
    ensures res.Ok? && Truthy(CleanQuery(arg)) ==> res.value.Arr? && "?" in res.value.a.named && res.value.a.named["?"] == CleanQuery(arg)
    ensures res.Ok? && !Truthy(CleanQuery(arg)) && !PassOf(arg).Arr? ==> res.value == Null
    ensures res.Ok? && !PassOf(arg).Arr? && Truthy(CleanQuery(arg)) ==> res.value == Arr(Params(map["?" := CleanQuery(arg)], []))
  {
    var params := ParamsOf(arg);
    if QueryOf(arg).Str? then Err(CannotUnsetStringOffset(QueryOf(arg).s))
    else
      var pass := PassOf(arg);
      var stripped := params.(named := params.named - InternalKeys);
      var url := CleanQuery(arg);
      var merged := if pass.Arr? then Arr(Merge(stripped, pass.a)) else Null;
      if !Truthy(url) then Ok(merged)
      else if merged.Arr? then Ok(Arr(Set(merged.a, "?", url)))
      else Ok(Arr(Params(map["?" := url], [])))
  }

  /** `reverse($params, $full)`: `url()` of the reversed array. */
  function Reverse(r: Router, c: Collection, f: Foreign, fullBase: Option<string>, arg: ReverseArg, full: FullArg)
    : (res: Result<string, RouterError>)
    ensures res.Err? <==> QueryOf(arg).Str?
    ensures res.Ok? ==> res.value == Url(r, c, f, fullBase, ReverseInput(arg).value, full)
  {
    match ReverseInput(arg)
    case Err(e) => Err(e)
    case Ok(u) => Ok(Url(r, c, f, fullBase, u, full))
  }

  /**
   * A typical parsed array: controller, action, one passed argument and the
   * internal keys. Reversing keeps controller, action and the argument only.
   */
  lemma ReverseOfParsed(p: Params)
    requires p.positional == []
    requires p.named == map["controller" := Str("posts"), "action" := Str("view"), "plugin" := Null,
                            "pass" := Arr(Params(map[], [Str("5")])), "url" := Arr(Params(map["url" := Str("posts/view/5")], [])),
                            "autoRender" := Int(1), "bare" := Int(0), "requested" := Int(0), "return" := Int(0)]
    ensures ReverseInput(FromParams(p)) ==
              Ok(Arr(Params(map["controller" := Str("posts"), "action" := Str("view"), "plugin" := Null], [Str("5")])))
  {
    var stripped := p.named - InternalKeys;
    var want := map["controller" := Str("posts"), "action" := Str("view"), "plugin" := Null];
    assert stripped.Keys == want.Keys;
    assert stripped == want;
    assert Isset(p, "pass");
    assert PassOf(FromParams(p)) == Arr(Params(map[], [Str("5")]));
    assert CleanQuery(FromParams(p)) == Arr(Params(map[], []));
    assert Merge(Params(stripped, []), Params(map[], [Str("5")])) == Params(want, [Str("5")]);
  }

  /** An unset `pass` and an empty query give back the stripped parameters. */
  lemma ReverseWithoutPass(arg: ReverseArg)
    requires !QueryOf(arg).Str? && !Isset(ParamsOf(arg), "pass") && !Truthy(CleanQuery(arg))
    ensures ReverseInput(arg) == Ok(Arr(Params(ParamsOf(arg).named - InternalKeys, ParamsOf(arg).positional)))
  {
    var stripped := ParamsOf(arg).(named := ParamsOf(arg).named - InternalKeys);
    assert Merge(stripped, NoParams) == stripped;
  }
}

=== FILE: router_state.dfy ===
/**
 * The router's registry as an immutable record: connected routes, action
 * prefixes, extension parsing configuration, the REST resource map and the
 * request stack, together with the collaborators the router only calls.
 */
module RouterState {
  import opened Results
  import opened PhpValue

  /** A connected route: its template, defaults and options, and the class built for it. */
  datatype Route = Route(template: string, defaults: Value, options: Params, routeClass: string)

  /** One row of the HTTP-method to action map used by `mapResources`. */
  datatype ResourceEntry = ResourceEntry(action: string, httpMethod: string, id: bool)

  /** The request fields the router reads. */
  datatype Request = Request(
    params: Params,
    base: string,
    here: string,
    query: Value,
    port: Value,
    scheme: string,
    host: string)

  /** The request context handed to the route collection when matching. */
  datatype Context = Context(base: string, port: Value, scheme: string, host: string)

  /** The route collection's `parse` and `match`, over the connected routes. */
  datatype Collection = Collection(
    parseUrl: (seq<Route>, string) -> Params,
    matchUrl: (seq<Route>, Params, Params, Context) -> Option<string>)

  /** Helpers from outside the router: `Inflector::underscore`, `pluginSplit`, `http_build_query`. */
  datatype Foreign = Foreign(
    underscore: string -> string,
    pluginSplit: string -> (string, string),
    buildQuery: (Params, string) -> string)

  datatype RouterError =
    | InvalidRouteClass(name: Value)
    | NotAnArray(url: Value)
    | CannotUnsetStringOffset(offsetOf: string)

  /** An exception together with the router's static state at the moment it was thrown. */
  datatype Thrown = Thrown(error: RouterError, state: Router)

  datatype Router = Router(
    routes: seq<Route>,
    prefixes: seq<string>,
    parseExtensions: bool,
    validExtensions: seq<string>,
    resourceMap: seq<ResourceEntry>,
    resourceMapped: seq<string>,
    requests: seq<Request>,
    routeClass: string,
    routeSubclasses: set<string>)

  const RouteClass := "Cake\\Routing\\Route\\Route"
  const RedirectRouteClass := "Cake\\Routing\\Route\\RedirectRoute"
  const PluginShortRouteClass := "Cake\\Routing\\Route\\PluginShortRoute"

  /** Named route element expressions. */
  const ActionPattern := "index|show|add|create|edit|update|remove|del|delete|view|item"
  const YearPattern := "[12][0-9]{3}"
  const MonthPattern := "0[1-9]|1[012]"
  const DayPattern := "0[1-9]|[12][0-9]|3[01]"
  const IdPattern := "[0-9]+"
  const UuidPattern := "[A-Fa-f0-9]{8}-[A-Fa-f0-9]{4}-[A-Fa-f0-9]{4}-[A-Fa-f0-9]{4}-[A-Fa-f0-9]{12}"

  /** The default REST map: (action, method, needs an id). */
  const DefaultResourceMap: seq<ResourceEntry> := [
    ResourceEntry("index", "GET", false),
    ResourceEntry("view", "GET", true),
    ResourceEntry("add", "POST", false),
    ResourceEntry("edit", "PUT", true),
    ResourceEntry("delete", "DELETE", true),
    ResourceEntry("edit", "POST", true)
  ]

  /**
   * The state `reload()` restores: no routes, no requests, extension parsing
   * off, the prefixes read from the `Routing.prefixes` configuration.
   */
  function Reload(configuredPrefixes: seq<string>, routeSubclasses: set<string>): (r: Router)
    ensures r.routes == [] && r.requests == [] && r.resourceMapped == []
    ensures !r.parseExtensions && r.validExtensions == []
    ensures r.prefixes == configuredPrefixes
    ensures r.resourceMap == DefaultResourceMap && r.routeClass == RouteClass
    ensures r.routeSubclasses == routeSubclasses
  {
    Router([], configuredPrefixes, false, [], DefaultResourceMap, [], [], RouteClass, routeSubclasses)
  }

  /** `parseExtensions(...)`: turns parsing on; a non-empty argument list replaces the whitelist. */
  function ParseExtensions(r: Router, names: seq<string>): (r': Router)
    ensures r'.parseExtensions
    ensures r'.validExtensions == (if names == [] then r.validExtensions else names)
    ensures r' == r.(parseExtensions := true, validExtensions := r'.validExtensions)
  {
    if |names| > 0 then r.(parseExtensions := true, validExtensions := names)
    else r.(parseExtensions := true)
  }

  /** `extensions()`. */
  function Extensions(r: Router): seq<string> {
    r.validExtensions
  }

  /** `prefixes()`. */
  function Prefixes(r: Router): seq<string> {
    r.prefixes
  }

  /** `_validateRouteClass`: the name must be a loaded class extending the base route class. */
  function ValidateRouteClass(r: Router, name: Value): (res: Result<string, RouterError>)
    ensures res.Ok? <==> name.Str? && name.s in r.routeSubclasses
    ensures res.Ok? ==> Str(res.value) == name
    ensures res.Err? ==> res.error == InvalidRouteClass(name)
  {
    if name.Str? && name.s in r.routeSubclasses then Ok(name.s) else Err(InvalidRouteClass(name))
  }

  /** `defaultRouteClass($name)`: a validated class replaces the default; nothing else changes. */
  function SetDefaultRouteClass(r: Router, name: Value): (res: Result<Router, RouterError>)
    ensures res.Ok? <==> name.Str? && name.s in r.routeSubclasses
    ensures res.Ok? ==> res.value == r.(routeClass := name.s)
  {
    match ValidateRouteClass(r, name)
    case Ok(c) => Ok(r.(routeClass := c))
    case Err(e) => Err(e)
  }

  /** `resourceMap($map)`: replaces the REST map wholesale. */
  function SetResourceMap(r: Router, map_: seq<ResourceEntry>): Router {
    r.(resourceMap := map_)
  }
}

=== FILE: url.dfy ===
/**
 * URL generation: `url()` for empty, array and string targets, the
 * scheme test and slash clean-up applied to its output, and the query
 * string builder.
 */
module Generation {
  import opened Results
  import opened PhpValue
  import opened PhpString
  import opened RouterState
  import opened RequestStack

  /** The second argument of `url()`: a flag, or an array with `escape` and `full`. */
  datatype FullArg = FullFlag(flag: bool) | FullOptions(opts: Params)

  /** `$escape` once `url()` has read its second argument. */
  function EscapeOf(full: FullArg): Value {
    match full
    case FullFlag(_) => Bool(false)
    case FullOptions(o) => if "escape" in o.named then o.named["escape"] else Bool(false)
  }

  /** `$full` once `url()` has read its second argument. */
  function FullOf(full: FullArg): Value {
    match full
    case FullFlag(b) => Bool(b)
    case FullOptions(o) => if "full" in o.named then o.named["full"] else Bool(false)
  }

  /** What `url()` reads from the current request. */
  datatype Current = Current(params: Params, ctx: Context, here: Option<string>)

  const DefaultParams: Params := Params(map["plugin" := Null, "controller" := Null, "action" := Str("index")], [])
  const DefaultContext: Context := Context("", Int(80), "http", "localhost")

  /** The current request's parameters, context and path, or the defaults when no request is set. */
  function CurrentOf(r: Router): (cur: Current)
    ensures |r.requests| == 0 ==> cur == Current(DefaultParams, DefaultContext, None)
    ensures |r.requests| > 0 ==>
              var top := r.requests[|r.requests| - 1];
              cur == Current(top.params, Context(top.base, top.port, top.scheme, top.host), Some(top.here))
  {
    match GetRequest(r, true)
    case None => Current(DefaultParams, DefaultContext, None)
    case Some(req) => Current(req.params, Context(req.base, req.port, req.scheme, req.host), Some(req.here))
  }

  /** The target array with the special keys taken out, and what they contribute. */
  datatype Specials = Specials(url: Params, full: Value, q: Value, frag: string, ext: string)

  const SpecialKeys: set<string> := {"_full", "?", "#", "ext"}

  /**
   * `_full` (only when exactly `true`), `?`, `#` and `ext` are removed from
   * the target when set; the fragment and extension gain their `#` and `.`.
   */
  function TakeSpecials(url: Params, full: Value): (sp: Specials)
    ensures forall k :: k in url.named && k !in SpecialKeys ==> k in sp.url.named
    ensures forall k :: k in sp.url.named ==> k in url.named && sp.url.named[k] == url.named[k]
    ensures sp.url.positional == url.positional
    ensures "_full" in sp.url.named <==> "_full" in url.named && url.named["_full"] != Bool(true)
    ensures "?" in sp.url.named <==> "?" in url.named && url.named["?"] == Null
    ensures "#" in sp.url.named <==> "#" in url.named && url.named["#"] == Null
    ensures "ext" in sp.url.named <==> "ext" in url.named && url.named["ext"] == Null
    ensures sp.full == if Get(url, "_full") == Bool(true) then Bool(true) else full
    ensures sp.q == Get(url, "?")
    ensures sp.frag == if Isset(url, "#") then "#" + ToStr(url.named["#"]) else ""
    ensures sp.ext == if Isset(url, "ext") then "." + ToStr(url.named["ext"]) else ""
  {
    var u1 := if Get(url, "_full") == Bool(true) then Unset(url, "_full") else url;
    var full1 := if Get(url, "_full") == Bool(true) then Bool(true) else full;
    var q := if Isset(u1, "?") then u1.named["?"] else Null;
    var u2 := if Isset(u1, "?") then Unset(u1, "?") else u1;
    var frag := if Isset(u2, "#") then "#" + ToStr(u2.named["#"]) else "";
    var u3 := if Isset(u2, "#") then Unset(u2, "#") else u2;
    var ext := if Isset(u3, "ext") then "." + ToStr(u3.named["ext"]) else "";
    var u4 := if Isset(u3, "ext") then Unset(u3, "ext") else u3;
    Specials(u4, full1, q, frag, ext)
  }

  /**
   * An empty action becomes the current action when the target names no
   * controller or the current one, and `index` otherwise.
   */
  function DefaultAction(url: Params, params: Params): (u: Params)
    ensures "action" in u.named
    ensures Truthy(Get(url, "action")) ==> u == url
    ensures Empty(Get(url, "action")) ==>
              u.named["action"] == (if Empty(Get(url, "controller")) || Get(params, "controller") == Get(url, "controller")
                                    then Get(params, "action") else Str("index"))
    ensures u.named.Keys == url.named.Keys + {"action"}
    ensures forall k :: k in url.named && k != "action" ==> u.named[k] == url.named[k]
    ensures u.positional == url.positional
  {
    if Truthy(Get(url, "action")) then url
    else if Empty(Get(url, "controller")) || Get(params, "controller") == Get(url, "controller") then
      Set(url, "action", Get(params, "action"))
    else Set(url, "action", Str("index"))
  }

  /** `array_intersect_key($url, array_flip($prefixes))` is non-empty. */
  predicate PrefixExists(url: Params, prefixes: seq<string>) {
    exists i :: 0 <= i < |prefixes| && prefixes[i] in url.named
  }

  /** A key and its value, or `None` when the key is absent. */
  function KeyOf(u: Params, k: string): Option<Value> {
    if k in u.named then Some(u.named[k]) else None
  }

  /**
   * Where the prefix loop leaves key `p`: switched on when the current
   * request has it and the target names no prefix, dropped when the target
   * sets it to a falsy value, otherwise as the target has it.
   */
  function PrefixOutcome(url: Params, params: Params, p: string, exists_: bool): Option<Value> {
    var cur := KeyOf(url, p);
    if Truthy(Get(params, p)) && !exists_ then Some(Bool(true))
    else if cur.Some? && cur.value != Null && Empty(cur.value) then None
    else cur
  }

  /** `substr($action, strlen($p) + 1)`: PHP 5 gives false when nothing is left. */
  function StripActionPrefix(action: string, p: string): (v: Value)
    requires StartsWith(action, p + "_")
    ensures v == Bool(false) <==> action == p + "_"
    ensures v.Str? ==> action == p + "_" + v.s
  {
    if |action| == |p| + 1 then Bool(false) else Str(action[|p| + 1..])
  }

  /** One round of the prefix loop for prefix `p`. */
  function PrefixStep(url: Params, params: Params, p: string, exists_: bool): Params {
    var u :=
      if Truthy(Get(params, p)) && !exists_ then Set(url, p, Bool(true))
      else if Isset(url, p) && Empty(url.named[p]) then Unset(url, p)
      else url;
    var a := ToStr(Get(u, "action"));
    if Isset(u, p) && StartsWith(a, p + "_") then Set(u, "action", StripActionPrefix(a, p)) else u
  }

  /** The whole prefix loop, in prefix order. */
  function Reconcile(url: Params, params: Params, prefixes: seq<string>, exists_: bool): Params
    decreases |prefixes|
  {
    if |prefixes| == 0 then url
    else Reconcile(PrefixStep(url, params, prefixes[0], exists_), params, prefixes[1..], exists_)
  }

  /** A round for `q` changes key `k` (other than `action`) only when `k` is `q`. */
  lemma StepKey(url: Params, params: Params, q: string, exists_: bool, k: string)
    requires k != "action"
    ensures KeyOf(PrefixStep(url, params, q, exists_), k) == (if k == q then PrefixOutcome(url, params, q, exists_) else KeyOf(url, k))
    ensures PrefixStep(url, params, q, exists_).positional == url.positional
  {
  }

  /** The loop leaves alone every key that is neither a prefix nor `action`. */
  lemma {:induction false} ReconcileFrame(url: Params, params: Params, prefixes: seq<string>, exists_: bool, k: string)
    requires k != "action" && k !in prefixes
    ensures KeyOf(Reconcile(url, params, prefixes, exists_), k) == KeyOf(url, k)
    decreases |prefixes|
  {
    if |prefixes| > 0 {
      StepKey(url, params, prefixes[0], exists_, k);
      ReconcileFrame(PrefixStep(url, params, prefixes[0], exists_), params, prefixes[1..], exists_, k);
    }
  }

  /** The loop never touches the integer-keyed part. */
  lemma {:induction false} ReconcilePositional(url: Params, params: Params, prefixes: seq<string>, exists_: bool)
    ensures Reconcile(url, params, prefixes, exists_).positional == url.positional
    decreases |prefixes|
  {
    if |prefixes| > 0 {
      StepKey(url, params, prefixes[0], exists_, "controller");
      ReconcilePositional(PrefixStep(url, params, prefixes[0], exists_), params, prefixes[1..], exists_);
    }
  }

  /** Every prefix key ends up as `PrefixOutcome` says, however often it is listed. */
  lemma {:induction false} ReconcileKeys(url: Params, params: Params, prefixes: seq<string>, exists_: bool, p: string)
    requires p in prefixes && p != "action"
    ensures KeyOf(Reconcile(url, params, prefixes, exists_), p) == PrefixOutcome(url, params, p, exists_)
    decreases |prefixes|
  {
    var s := PrefixStep(url, params, prefixes[0], exists_);
    StepKey(url, params, prefixes[0], exists_, p);
    if p in prefixes[1..] {
      ReconcileKeys(s, params, prefixes[1..], exists_, p);
    } else {
      ReconcileFrame(s, params, prefixes[1..], exists_, p);
    }
  }

  /** Whether the target sets prefix `p` (present and not null) once the loop has settled it. */
  predicate SetAfter(url: Params, params: Params, p: string, exists_: bool) {
    var o := PrefixOutcome(url, params, p, exists_);
    o.Some? && o.value != Null
  }

  /**
   * The action after the prefix loop, followed on the action alone: for
   * each prefix in order that the target ends up setting, a leading `p_`
   * is cut off the action as it stands at that point.
   */
  function StrippedAction(a: Value, url: Params, params: Params, prefixes: seq<string>, exists_: bool): Value
    decreases |prefixes|
  {
    if |prefixes| == 0 then a
    else
      var p := prefixes[0];
      var a1 := if SetAfter(url, params, p, exists_) && StartsWith(ToStr(a), p + "_") then StripActionPrefix(ToStr(a), p) else a;
      StrippedAction(a1, url, params, prefixes[1..], exists_)
  }

  /** The stripped action depends on the target only through which prefixes it sets. */
  lemma {:induction false} StrippedActionCongruent(a: Value, u: Params, v: Params, params: Params,
                                                   prefixes: seq<string>, exists_: bool)
    requires forall q :: q in prefixes ==> SetAfter(u, params, q, exists_) == SetAfter(v, params, q, exists_)
    ensures StrippedAction(a, u, params, prefixes, exists_) == StrippedAction(a, v, params, prefixes, exists_)
    decreases |prefixes|
  {
    if |prefixes| > 0 {
      var p := prefixes[0];
      assert p in prefixes;
      var a1 := if SetAfter(u, params, p, exists_) && StartsWith(ToStr(a), p + "_") then StripActionPrefix(ToStr(a), p) else a;
      assert forall q :: q in prefixes[1..] ==> q in prefixes;
      StrippedActionCongruent(a1, u, v, params, prefixes[1..], exists_);
    }
  }

  /** A second round for the same prefix settles it the same way. */
  lemma OutcomeStable(url: Params, params: Params, p: string, exists_: bool)
    requires p != "action"
    ensures PrefixOutcome(PrefixStep(url, params, p, exists_), params, p, exists_) == PrefixOutcome(url, params, p, exists_)
  {
    StepKey(url, params, p, exists_, p);
  }

  /** One round cuts `p_` off the action exactly when the target ends up setting `p`. */
  lemma StepAction(url: Params, params: Params, p: string, exists_: bool)
    requires p != "action"
    ensures var a := Get(url, "action");
            Get(PrefixStep(url, params, p, exists_), "action") ==
              (if SetAfter(url, params, p, exists_) && StartsWith(ToStr(a), p + "_") then StripActionPrefix(ToStr(a), p) else a)
  {
    StepKey(url, params, p, exists_, p);
  }

  /** The loop leaves the action as `StrippedAction` computes it. */
  lemma {:induction false} ReconcileAction(url: Params, params: Params, prefixes: seq<string>, exists_: bool)
    requires "action" !in prefixes
    ensures Get(Reconcile(url, params, prefixes, exists_), "action") ==
              StrippedAction(Get(url, "action"), url, params, prefixes, exists_)
    decreases |prefixes|
  {
    if |prefixes| > 0 {
      var p := prefixes[0];
      var s := PrefixStep(url, params, p, exists_);
      var rest := prefixes[1..];
      StepAction(url, params, p, exists_);
      ReconcileAction(s, params, rest, exists_);
      forall q | q in rest
        ensures SetAfter(s, params, q, exists_) == SetAfter(url, params, q, exists_)
      {
        if q == p {
          OutcomeStable(url, params, p, exists_);
        } else {
          StepKey(url, params, p, exists_, q);
        }
      }
      StrippedActionCongruent(Get(s, "action"), s, url, params, rest, exists_);
    }
  }

  /** The array handed to the route collection's `match`. */
  function MatchInput(url: Params, params: Params, prefixes: seq<string>): Params {
    var u := DefaultAction(url, params);
    var rec := Reconcile(u, params, prefixes, PrefixExists(u, prefixes));
    AddMissing(AddMissing(rec, "controller", Get(params, "controller")), "plugin", Get(params, "plugin"))
  }

  /**
   * The array `match` receives has `controller` and `plugin`, taken from the
   * current request when the target omits them, and the target's integer-keyed
   * entries.
   */
  lemma MatchInputKeys(url: Params, params: Params, prefixes: seq<string>)
    ensures var m := MatchInput(url, params, prefixes);
            && "controller" in m.named && "plugin" in m.named
            && m.positional == url.positional
            && ("controller" !in prefixes ==>
                  m.named["controller"] == if "controller" in url.named then url.named["controller"] else Get(params, "controller"))
            && ("plugin" !in prefixes ==>
                  m.named["plugin"] == if "plugin" in url.named then url.named["plugin"] else Get(params, "plugin"))
  {
    var u := DefaultAction(url, params);
    var ex := PrefixExists(u, prefixes);
    ReconcilePositional(u, params, prefixes, ex);
    if "controller" !in prefixes {
      ReconcileFrame(u, params, prefixes, ex, "controller");
    }
    if "plugin" !in prefixes {
      ReconcileFrame(u, params, prefixes, ex, "plugin");
    }
  }

  /** Every key of the target that is neither a prefix nor `action` reaches `match` unchanged. */
  lemma MatchInputKeepsKeys(url: Params, params: Params, prefixes: seq<string>)
    ensures forall k :: k in url.named && k !in prefixes && k != "action" ==>
              k in MatchInput(url, params, prefixes).named && MatchInput(url, params, prefixes).named[k] == url.named[k]
  {
    var u := DefaultAction(url, params);
    var ex := PrefixExists(u, prefixes);
    forall k | k in url.named && k !in prefixes && k != "action"
      ensures k in MatchInput(url, params, prefixes).named && MatchInput(url, params, prefixes).named[k] == url.named[k]
    {
      ReconcileFrame(u, params, prefixes, ex, k);
    }
  }

  /** Each prefix key reaches `match` as the prefix loop settles it. */
  lemma MatchInputPrefixes(url: Params, params: Params, prefixes: seq<string>)
    ensures forall p :: p in prefixes && p != "action" && p != "controller" && p != "plugin" ==>
              var u := DefaultAction(url, params);
              KeyOf(MatchInput(url, params, prefixes), p) == PrefixOutcome(u, params, p, PrefixExists(u, prefixes))
  {
    var u := DefaultAction(url, params);
    var ex := PrefixExists(u, prefixes);
    forall p | p in prefixes && p != "action" && p != "controller" && p != "plugin"
      ensures KeyOf(MatchInput(url, params, prefixes), p) == PrefixOutcome(u, params, p, ex)
    {
      ReconcileKeys(u, params, prefixes, ex, p);
    }
  }

  /** The action `match` receives: the defaulted action with the prefixes the target sets cut off. */
  lemma MatchInputAction(url: Params, params: Params, prefixes: seq<string>)
    requires "action" !in prefixes
    ensures var u := DefaultAction(url, params);
            Get(MatchInput(url, params, prefixes), "action") ==
              StrippedAction(Get(u, "action"), u, params, prefixes, PrefixExists(u, prefixes))
  {
    var u := DefaultAction(url, params);
    ReconcileAction(u, params, prefixes, PrefixExists(u, prefixes));
  }

  /**
   * With one prefix `p` that the target sets, an action `p_rest` reaches
   * `match` as `rest`, or as PHP's false when `rest` is empty.
   */
  lemma MatchInputStripsPrefix(url: Params, params: Params, p: string, rest: string)
    requires p != "action"
    requires Truthy(Get(url, p)) && Get(url, "action") == Str(p + "_" + rest)
    ensures Get(MatchInput(url, params, [p]), "action") == if rest == "" then Bool(false) else Str(rest)
  {
    var a := p + "_" + rest;
    assert a[|p|] == '_';
    assert Truthy(Str(a));
    assert [p][0] in url.named;
    assert PrefixExists(url, [p]);
    MatchInputAction(url, params, [p]);
    assert a[..|p + "_"|] == p + "_";
    assert a[|p| + 1..] == rest;
  }

  /**
   * A prefix the target sets to a falsy non-null value, and the current
   * request does not switch on, is dropped and leaves the action alone.
   */
  lemma MatchInputFalsyPrefixKeepsAction(url: Params, params: Params, p: string)
    requires p != "action" && p != "controller" && p != "plugin"
    requires p in url.named && url.named[p] != Null && Empty(url.named[p]) && Empty(Get(params, p))
    requires Truthy(Get(url, "action"))
    ensures Get(MatchInput(url, params, [p]), "action") == Get(url, "action")
    ensures p !in MatchInput(url, params, [p]).named
  {
    MatchInputAction(url, params, [p]);
    MatchInputPrefixes(url, params, [p]);
  }

  /** The prefix segment of a relative string target: the first prefix set in the current request. */
  function FirstSetPrefix(params: Params, prefixes: seq<string>): (seg: string)
    ensures seg == "" <==> forall i :: 0 <= i < |prefixes| ==> !Isset(params, prefixes[i])
    ensures seg != "" ==> exists i :: 0 <= i < |prefixes| && Isset(params, prefixes[i]) && seg == prefixes[i] + "/"
                            && forall j :: 0 <= j < i ==> !Isset(params, prefixes[j])
    decreases |prefixes|
  {
    if |prefixes| == 0 then ""
    else if Isset(params, prefixes[0]) then prefixes[0] + "/"
    else
      var rest := FirstSetPrefix(params, prefixes[1..]);
      assert forall i :: 1 <= i < |prefixes| ==> prefixes[i] == prefixes[1..][i - 1];
      rest
  }

  /** A string target that `url()` hands back untouched. */
  predicate PassThrough(s: string) {
    Contains(s, "://") || StartsWith(s, "javascript:") || StartsWith(s, "mailto:") || StartsWith(s, "#")
  }

  /**
   * The path of a string target: a rooted one loses its slash; a relative
   * one is placed under the current prefix, plugin and controller.
   */
  function StringOutput(s: string, params: Params, prefixes: seq<string>, f: Foreign): string {
    if |s| > 0 && s[0] == '/' then s[1..]
    else
      var plugin := Get(params, "plugin");
      var pluginSeg := if Truthy(plugin) && plugin != Get(params, "controller") then f.underscore(ToStr(plugin)) + "/" else "";
      FirstSetPrefix(params, prefixes) + pluginSeg + f.underscore(ToStr(Get(params, "controller"))) + "/" + s
  }

  /** The characters `[a-z0-9+-.]` of the scheme pattern, case-insensitive (`+-.` is a range). */
  predicate SchemeChar(c: char) {
    IsAlnum(c) || '+' <= c <= '.'
  }

  /** `preg_match('#^[a-z][a-z0-9+-.]*\://#i', $o)`. */
  predicate HasScheme(o: string) {
    |o| > 0 && IsLetter(o[0]) && OccursAt(o, "://", 1 + LeadingRun(o[1..], SchemeChar))
  }

  /** The greedy test agrees with the pattern: a letter, scheme characters, then `://`. */
  lemma HasSchemeIff(o: string)
    ensures HasScheme(o) <==>
              |o| > 0 && IsLetter(o[0]) &&
              exists k :: 1 <= k && OccursAt(o, "://", k) && forall i :: 1 <= i < k ==> SchemeChar(o[i])
  {
    if |o| > 0 {
      var run := LeadingRun(o[1..], SchemeChar);
      forall i | 1 <= i < 1 + run
        ensures SchemeChar(o[i])
      {
        assert o[i] == o[1..][i - 1];
      }
      if IsLetter(o[0]) && exists k :: 1 <= k && OccursAt(o, "://", k) && forall i :: 1 <= i < k ==> SchemeChar(o[i]) {
        var k :| 1 <= k && OccursAt(o, "://", k) && forall i :: 1 <= i < k ==> SchemeChar(o[i]);
        assert o[k] == ':';
        assert run < |o[1..]| ==> o[1 + run] == o[1..][run];
      }
    }
  }

  /** A scheme means the output contains `://`. */
  lemma HasSchemeContains(o: string)
    ensures HasScheme(o) ==> Contains(o, "://")
  {
    if HasScheme(o) {
      var k := 1 + LeadingRun(o[1..], SchemeChar);
      assert OccursAt(o, "://", k);
    }
  }

  /**
   * The path part of the end of `url()`: an output without a scheme is
   * rooted, its `//` replaced, prefixed with the full base, and stripped of
   * trailing slashes when an extension follows.
   */
  function FinishPath(o: string, full: Value, fullBase: Option<string>, ext: string): string {
    if HasScheme(o) then o
    else
      var a := ReplaceDoubleSlashes("/" + o);
      var b := if Truthy(full) && fullBase.Some? then fullBase.value + a else a;
      if Truthy(Str(ext)) then RTrimSlashes(b) else b
  }

  /** The end of `url()`: the path, then extension, query string and fragment. */
  function Finish(o: string, full: Value, fullBase: Option<string>, ext: string, q: Value, frag: string,
                  escape: Value, f: Foreign): string {
    FinishPath(o, full, fullBase, ext) + ext + QueryText(QueryString(q, NoParams, escape, f)) + frag
  }

  /** A null query string concatenates as "". */
  function QueryText(q: Option<string>): string {
    match q
    case None => ""
    case Some(s) => s
  }

  /** With no query or fragment only the path and the extension are left. */
  lemma FinishNoQuery(o: string, full: Value, fullBase: Option<string>, ext: string, escape: Value, f: Foreign)
    ensures Finish(o, full, fullBase, ext, Null, "", escape, f) == FinishPath(o, full, fullBase, ext) + ext
  {
    assert QueryString(Null, NoParams, escape, f).None?;
  }

  /** With no extension, query or fragment only the path is left. */
  lemma FinishPlain(o: string, full: Value, fullBase: Option<string>, escape: Value, f: Foreign)
    ensures Finish(o, full, fullBase, "", Null, "", escape, f) == FinishPath(o, full, fullBase, "")
  {
    FinishNoQuery(o, full, fullBase, "", escape, f);
  }

  /** An empty target: the current request's path, or `/`. */
  function EmptyUrl(cur: Current, isFull: Value, fullBase: Option<string>): string {
    var out := if cur.here.Some? then cur.here.value else "/";
    if Truthy(isFull) && fullBase.Some? then fullBase.value + out else out
  }

  /** An array target: special keys, then the route collection's `match`, then the end of `url()`. */
  function ArrayUrl(r: Router, c: Collection, f: Foreign, fullBase: Option<string>, cur: Current,
                    url: Params, isFull: Value, escape: Value): string {
    var sp := TakeSpecials(url, isFull);
    var m := MatchInput(sp.url, cur.params, r.prefixes);
    var o := match c.matchUrl(r.routes, m, cur.params, cur.ctx) case None => "" case Some(x) => x;
    Finish(o, sp.full, fullBase, sp.ext, sp.q, sp.frag, escape, f)
  }

  /** A string target: passed through, or turned into a path. */
  function StringUrl(r: Router, f: Foreign, fullBase: Option<string>, cur: Current,
                     s: string, isFull: Value, escape: Value): string {
    if PassThrough(s) then s
    else Finish(StringOutput(s, cur.params, r.prefixes, f), isFull, fullBase, "", Null, "", escape, f)
  }

  /**
   * `url($url, $full)`. `fullBase` is the `FULL_BASE_URL` constant, `None`
   * when it is not defined. An empty target is the current request's path,
   * or `/` with no request, behind the full base when one is asked for and
   * defined; an absolute, `javascript:`, `mailto:` or fragment-only string
   * comes back as it is.
   */
  function Url(r: Router, c: Collection, f: Foreign, fullBase: Option<string>, url: Value, full: FullArg): (u: string)
    ensures Empty(url) ==>
              var here := if |r.requests| == 0 then "/" else r.requests[|r.requests| - 1].here;
              u == (if Truthy(FullOf(full)) && fullBase.Some? then fullBase.value + here else here)
    ensures url.Str? && !Empty(url) && PassThrough(url.s) ==> u == url.s
  {
    var cur := CurrentOf(r);
    if Empty(url) then EmptyUrl(cur, FullOf(full), fullBase)
    else if url.Arr? then ArrayUrl(r, c, f, fullBase, cur, url.a, FullOf(full), EscapeOf(full))
    else StringUrl(r, f, fullBase, cur, ToStr(url), FullOf(full), EscapeOf(full))
  }

  /** An empty target is the current request's path, or `/` with no request. */
  lemma UrlOfEmpty(r: Router, c: Collection, f: Foreign, fullBase: Option<string>, url: Value, full: FullArg)
    requires Empty(url)
    ensures var here := if |r.requests| == 0 then "/" else r.requests[|r.requests| - 1].here;
            Url(r, c, f, fullBase, url, full) ==
              (if Truthy(FullOf(full)) && fullBase.Some? then fullBase.value + here else here)
  {
  }

  /** Absolute URLs, `javascript:`, `mailto:` and fragment-only strings come back unchanged. */
  lemma UrlPassThrough(r: Router, c: Collection, f: Foreign, fullBase: Option<string>, s: string, full: FullArg)
    requires s != "" && s != "0" && PassThrough(s)
    ensures Url(r, c, f, fullBase, Str(s), full) == s
  {
  }

  /** A rooted string without `://` is not passed through, and its tail has no scheme. */
  lemma RootedNoScheme(s: string)
    requires |s| > 0 && s[0] == '/' && !Contains(s, "://")
    ensures !PassThrough(s) && !HasScheme(s[1..])
  {
    var o := s[1..];
    HasSchemeContains(o);
    TailOccurrence(s, "://");
    assert !StartsWith(s, "javascript:") && !StartsWith(s, "mailto:") && !StartsWith(s, "#") by {
      PrefixChar(s, "javascript:", 0);
      PrefixChar(s, "mailto:", 0);
      PrefixChar(s, "#", 0);
    }
  }

  /** What occurs in the tail of a string occurs in the string. */
  lemma TailOccurrence(s: string, p: string)
    requires |s| > 0
    ensures Contains(s[1..], p) ==> Contains(s, p)
  {
    if Contains(s[1..], p) {
      var k := StrPos(s[1..], p).value;
      assert s[k + 1..k + 1 + |p|] == s[1..][k..k + |p|];
      assert OccursAt(s, p, k + 1);
    }
  }

  /** Without a colon there is no `://`. */
  lemma NoColonNoSeparator(s: string)
    requires forall i :: 0 <= i < |s| ==> s[i] != ':'
    ensures !Contains(s, "://")
  {
    forall j | 0 <= j
      ensures !OccursAt(s, "://", j)
    {
      assert j + 3 <= |s| ==> s[j..j + 3][0] == s[j];
    }
  }

  /** The string branch on a rooted target. */
  lemma StringUrlRooted(r: Router, f: Foreign, fullBase: Option<string>, cur: Current, s: string, isFull: Value, escape: Value)
    requires |s| > 0 && s[0] == '/' && !Contains(s, "://")
    ensures StringUrl(r, f, fullBase, cur, s, isFull, escape) ==
              (if Truthy(isFull) && fullBase.Some? then fullBase.value + ReplaceDoubleSlashes(s) else ReplaceDoubleSlashes(s))
  {
    RootedNoScheme(s);
    var o := s[1..];
    StringUrlBuilt(r, f, fullBase, cur, s, isFull, escape);
    assert StringOutput(s, cur.params, r.prefixes, f) == o;
    FinishPlain(o, isFull, fullBase, escape, f);
    assert "/" + o == s;
  }

  /** A string target that is not passed through is finished from its path. */
  lemma StringUrlBuilt(r: Router, f: Foreign, fullBase: Option<string>, cur: Current, s: string, isFull: Value, escape: Value)
    requires !PassThrough(s)
    ensures StringUrl(r, f, fullBase, cur, s, isFull, escape) ==
              Finish(StringOutput(s, cur.params, r.prefixes, f), isFull, fullBase, "", Null, "", escape, f)
  {
  }

  /** A non-empty array target goes through the array branch. */
  lemma UrlOfArray(r: Router, c: Collection, f: Foreign, fullBase: Option<string>, url: Params, full: FullArg)
    requires Truthy(Arr(url))
    ensures Url(r, c, f, fullBase, Arr(url), full) == ArrayUrl(r, c, f, fullBase, CurrentOf(r), url, FullOf(full), EscapeOf(full))
  {
  }

  /**
   * A rooted string target keeps its path: it stays rooted, gets one pass of
   * `//` replacement and the full base when asked for, and never grows.
   */
  lemma UrlOfRootedString(r: Router, c: Collection, f: Foreign, fullBase: Option<string>, s: string, full: FullArg)
    requires |s| > 0 && s[0] == '/' && !Contains(s, "://")
    ensures var out := ReplaceDoubleSlashes(s);
            && Url(r, c, f, fullBase, Str(s), full) == (if Truthy(FullOf(full)) && fullBase.Some? then fullBase.value + out else out)
            && |out| <= |s| && out[0] == '/'
  {
    assert s != "0";
    assert !Empty(Str(s));
    StringUrlRooted(r, f, fullBase, CurrentOf(r), s, FullOf(full), EscapeOf(full));
    ReplaceNoLonger(s);
    ReplaceKeepsLeadingSlash(s);
  }

  /**
   * `str_replace` makes a single pass: a run of three slashes between two
   * segments comes out as two, not one.
   */
  lemma UrlSinglePass(r: Router, c: Collection, f: Foreign, a: string, b: string)
    requires Segment(a) && Segment(b)
    ensures Url(r, c, f, None, Str("/" + a + "///" + b), FullFlag(false)) == "/" + a + "//" + b
  {
    var s := "/" + a + "///" + b;
    assert forall i :: 0 <= i < |s| ==> s[i] != ':' by {
      forall i | 0 <= i < |s| ensures s[i] != ':' {
        if 1 <= i <= |a| {
          assert s[i] == a[i - 1];
        } else if i >= |a| + 4 {
          assert s[i] == b[i - |a| - 4];
        }
      }
    }
    NoColonNoSeparator(s);
    UrlOfRootedString(r, c, f, None, s, FullFlag(false));
    ThreeSlashesToTwo(a, b);
  }

  /** One pass over `/a///b` leaves `/a//b`. */
  lemma ThreeSlashesToTwo(a: string, b: string)
    requires Segment(a) && Segment(b)
    ensures ReplaceDoubleSlashes("/" + a + "///" + b) == "/" + a + "//" + b
  {
    var x := "/" + a;
    RootedSegment(a);
    assert x[|x| - 1] == a[|a| - 1];
    assert ReplaceDoubleSlashes(x + ("///" + b)) == x + ("//" + b) by {
      ReplaceAfterClean(x, "///" + b);
      ThreeSlashes(b);
    }
    assert "/" + a + "///" + b == x + ("///" + b);
    assert "/" + a + "//" + b == x + ("//" + b);
  }

  /** A rooted segment has no `//`. */
  lemma RootedSegment(a: string)
    requires Segment(a)
    ensures NoDoubleSlash("/" + a)
  {
    var x := "/" + a;
    forall i | 0 <= i < |x| - 1 ensures !(x[i] == '/' && x[i + 1] == '/') {
      assert x[i + 1] == a[i];
    }
  }

  /** One pass over `///b` leaves `//b`. */
  lemma ThreeSlashes(b: string)
    requires Segment(b)
    ensures ReplaceDoubleSlashes("///" + b) == "//" + b
  {
    var y := "///" + b;
    assert y[0] == '/' && y[1] == '/' && y[2..] == "/" + b;
    ReplaceDoubleHead(y);
    RootedSegment(b);
    ReplaceIdentity("/" + b);
    assert "/" + ("/" + b) == "//" + b;
  }

  /** The string branch on a relative target: the path under the current prefix, plugin and controller. */
  lemma UrlOfRelative(r: Router, c: Collection, f: Foreign, fullBase: Option<string>, s: string, full: FullArg)
    requires |s| > 0 && s[0] != '/' && s != "0" && !PassThrough(s)
    ensures Url(r, c, f, fullBase, Str(s), full) ==
              Finish(StringOutput(s, CurrentOf(r).params, r.prefixes, f), FullOf(full), fullBase, "", Null, "", EscapeOf(full), f)
  {
    assert !Empty(Str(s));
  }

  /**
   * Whatever the current request, a relative target's path starts with the
   * first prefix the request sets (as `prefix/`) and ends with `/` and the
   * target; a plugin segment, when the plugin is set and differs from the
   * controller, comes between.
   */
  lemma RelativeOutputFrame(s: string, params: Params, prefixes: seq<string>, f: Foreign)
    requires |s| > 0 && s[0] != '/'
    ensures var out := StringOutput(s, params, prefixes, f);
            && StartsWith(out, FirstSetPrefix(params, prefixes))
            && EndsWith(out, "/" + s)
            && (Truthy(Get(params, "plugin")) && Get(params, "plugin") != Get(params, "controller") ==>
                  StartsWith(out, FirstSetPrefix(params, prefixes) + f.underscore(ToStr(Get(params, "plugin"))) + "/"))
  {
    var pre := FirstSetPrefix(params, prefixes);
    var plugin := Get(params, "plugin");
    var pluginSeg := if Truthy(plugin) && plugin != Get(params, "controller") then f.underscore(ToStr(plugin)) + "/" else "";
    var ctl := f.underscore(ToStr(Get(params, "controller")));
    JoinedPathEnds(pre, pluginSeg, ctl, s);
  }

  /** A path segment: not empty, without `/` or `:`. */
  predicate Segment(s: string) {
    |s| > 0 && forall i :: 0 <= i < |s| ==> s[i] != '/' && s[i] != ':'
  }

  /** A relative path: not rooted, no fragment mark in front, no `//` and no `:`. */
  predicate RelativePath(s: string) {
    && |s| > 0 && s[0] != '/' && s[0] != '#' && NoDoubleSlash(s)
    && forall i :: 0 <= i < |s| ==> s[i] != ':'
  }

  /** A string without a colon that does not start with `#` is not passed through. */
  lemma NotPassThrough(s: string)
    requires |s| > 0 && s[0] != '#'
    requires forall i :: 0 <= i < |s| ==> s[i] != ':'
    ensures !PassThrough(s)
  {
    NoColonNoSeparator(s);
    PrefixChar(s, "javascript:", 10);
    PrefixChar(s, "mailto:", 6);
  }

  /** A string starting with `p` has `p`'s characters in front. */
  lemma PrefixChar(s: string, p: string, k: nat)
    requires k < |p|
    ensures StartsWith(s, p) ==> s[k] == p[k]
  {
    if StartsWith(s, p) {
      assert s[..|p|][k] == s[k];
    }
  }

  /** `segment/path` has no colon, and rooted it has no `//`. */
  lemma SegmentJoin(u: string, s: string)
    requires Segment(u) && RelativePath(s)
    ensures forall i :: 0 <= i < |u + "/" + s| ==> (u + "/" + s)[i] != ':'
    ensures NoDoubleSlash("/" + (u + "/" + s))
  {
    var o := u + "/" + s;
    forall i | 0 <= i < |o| ensures o[i] != ':' {
      if i < |u| {
        assert o[i] == u[i];
      } else if i > |u| {
        assert o[i] == s[i - |u| - 1];
      }
    }
    var t := "/" + o;
    forall i | 0 <= i < |t| - 1 ensures !(t[i] == '/' && t[i + 1] == '/') {
      if i == 0 {
        assert t[1] == u[0];
      } else if i <= |u| {
        assert t[i] == u[i - 1];
      } else if i == |u| + 1 {
        assert t[i + 1] == s[0];
      } else {
        assert t[i] == s[i - |u| - 2] && t[i + 1] == s[i - |u| - 1];
      }
    }
  }

  /**
   * A relative string target is placed under the current controller: with
   * no prefix set and no plugin in the current request, `path` becomes
   * `/controller/path`.
   */
  lemma UrlOfRelativeString(r: Router, c: Collection, f: Foreign, fullBase: Option<string>, s: string)
    requires var params := CurrentOf(r).params;
             && !Truthy(Get(params, "plugin"))
             && (forall i :: 0 <= i < |r.prefixes| ==> !Isset(params, r.prefixes[i]))
             && Segment(f.underscore(ToStr(Get(params, "controller"))))
    requires RelativePath(s) && s != "0"
    ensures Url(r, c, f, fullBase, Str(s), FullFlag(false)) ==
              "/" + f.underscore(ToStr(Get(CurrentOf(r).params, "controller"))) + "/" + s
  {
    var u := f.underscore(ToStr(Get(CurrentOf(r).params, "controller")));
    RelativeUrlOutput(r, c, f, fullBase, s);
    RelativeFinish(u, s, fullBase, f);
  }

  /** The relative string URL before finishing: `controller/target`. */
  lemma RelativeUrlOutput(r: Router, c: Collection, f: Foreign, fullBase: Option<string>, s: string)
    requires var params := CurrentOf(r).params;
             && !Truthy(Get(params, "plugin"))
             && (forall i :: 0 <= i < |r.prefixes| ==> !Isset(params, r.prefixes[i]))
    requires RelativePath(s) && s != "0"
    ensures Url(r, c, f, fullBase, Str(s), FullFlag(false)) ==
              Finish(f.underscore(ToStr(Get(CurrentOf(r).params, "controller"))) + "/" + s,
                     Bool(false), fullBase, "", Null, "", Bool(false), f)
  {
    NotPassThrough(s);
    UrlOfRelative(r, c, f, fullBase, s, FullFlag(false));
    RelativeOutputShape(s, CurrentOf(r).params, r.prefixes, f);
  }

  /** Finishing `controller/target` only roots it. */
  lemma RelativeFinish(u: string, s: string, fullBase: Option<string>, f: Foreign)
    requires Segment(u) && RelativePath(s)
    ensures Finish(u + "/" + s, Bool(false), fullBase, "", Null, "", Bool(false), f) == "/" + u + "/" + s
  {
    SegmentJoin(u, s);
    FinishClean(u + "/" + s, fullBase, Bool(false), f);
  }

  /** With no prefix set and no plugin, a relative target's path is `controller/target`. */
  lemma RelativeOutputShape(s: string, params: Params, prefixes: seq<string>, f: Foreign)
    requires !Truthy(Get(params, "plugin"))
    requires forall i :: 0 <= i < |prefixes| ==> !Isset(params, prefixes[i])
    requires |s| > 0 && s[0] != '/'
    ensures StringOutput(s, params, prefixes, f) == f.underscore(ToStr(Get(params, "controller"))) + "/" + s
  {
    assert FirstSetPrefix(params, prefixes) == "";
  }

  /** A path without a colon whose rooted form has no `//` is just rooted. */
  lemma FinishClean(o: string, fullBase: Option<string>, escape: Value, f: Foreign)
    requires forall i :: 0 <= i < |o| ==> o[i] != ':'
    requires NoDoubleSlash("/" + o)
    ensures Finish(o, Bool(false), fullBase, "", Null, "", escape, f) == "/" + o
  {
    FinishPathClean(o, fullBase, "");
    FinishPlain(o, Bool(false), fullBase, escape, f);
  }

  /** The path of a clean output without the full base: rooted, and trimmed before an extension. */
  lemma FinishPathClean(o: string, fullBase: Option<string>, ext: string)
    requires forall i :: 0 <= i < |o| ==> o[i] != ':'
    requires NoDoubleSlash("/" + o)
    ensures FinishPath(o, Bool(false), fullBase, ext) == if Truthy(Str(ext)) then RTrimSlashes("/" + o) else "/" + o
  {
    NoColonNoSeparator(o);
    HasSchemeContains(o);
    ReplaceIdentity("/" + o);
  }

  /** An array target no route matches yields the site root. */
  lemma UrlOfUnmatchedArray(r: Router, c: Collection, f: Foreign, fullBase: Option<string>, url: Params)
    requires Truthy(Arr(url))
    requires forall k :: k in SpecialKeys ==> k !in url.named
    requires c.matchUrl(r.routes, MatchInput(url, CurrentOf(r).params, r.prefixes), CurrentOf(r).params, CurrentOf(r).ctx).None?
    ensures Url(r, c, f, fullBase, Arr(url), FullFlag(false)) == "/"
  {
    UrlOfArray(r, c, f, fullBase, url, FullFlag(false));
    UnmatchedArrayUrl(r, c, f, fullBase, CurrentOf(r), url);
  }

  lemma UnmatchedArrayUrl(r: Router, c: Collection, f: Foreign, fullBase: Option<string>, cur: Current, url: Params)
    requires forall k :: k in SpecialKeys ==> k !in url.named
    requires c.matchUrl(r.routes, MatchInput(url, cur.params, r.prefixes), cur.params, cur.ctx).None?
    ensures ArrayUrl(r, c, f, fullBase, cur, url, Bool(false), Bool(false)) == "/"
  {
    NoSpecials(url, Bool(false));
    assert FinishPath("", Bool(false), fullBase, "") == "/" by {
      assert !HasScheme("");
      assert ReplaceDoubleSlashes("/") == "/";
    }
    FinishPlain("", Bool(false), fullBase, Bool(false), f);
  }

  /** A target without special keys is passed on whole, and contributes nothing else. */
  lemma NoSpecials(url: Params, full: Value)
    requires forall k :: k in SpecialKeys ==> k !in url.named
    ensures TakeSpecials(url, full) == Specials(url, full, Null, "", "")
  {
    var sp := TakeSpecials(url, full);
    assert sp.url.named == url.named;
  }

  /** The fragment of an array target comes last, after the query string. */
  lemma UrlFragmentLast(r: Router, c: Collection, f: Foreign, fullBase: Option<string>, url: Params, full: FullArg)
    requires Truthy(Arr(url)) && Isset(url, "#")
    ensures EndsWith(Url(r, c, f, fullBase, Arr(url), full), "#" + ToStr(url.named["#"]))
  {
    var sp := TakeSpecials(url, FullOf(full));
    var out := Url(r, c, f, fullBase, Arr(url), full);
    assert out[|out| - |sp.frag|..] == sp.frag;
  }

  /**
   * With an extension the trailing slash of the route's output is dropped
   * before the extension is appended: a match `name/` with `ext` gives
   * `/name.ext`. A non-empty array target always takes this branch
   * (`UrlOfArray`).
   */
  lemma UrlExtensionAfterSlash(r: Router, c: Collection, f: Foreign, fullBase: Option<string>, cur: Current,
                               url: Params, name: string, e: string)
    requires "_full" !in url.named && "?" !in url.named && "#" !in url.named
    requires "ext" in url.named && url.named["ext"] == Str(e)
    requires Segment(name)
    requires c.matchUrl(r.routes, MatchInput(TakeSpecials(url, Bool(false)).url, cur.params, r.prefixes),
                        cur.params, cur.ctx) == Some(name + "/")
    ensures ArrayUrl(r, c, f, fullBase, cur, url, Bool(false), Bool(false)) == "/" + name + "." + e
  {
    ArrayUrlMatched(r, c, f, fullBase, cur, url, Bool(false), Bool(false), name + "/");
    ExtensionSpecials(url, e);
    assert ("." + e)[0] == '.';
    FinishDirWithExtension(name, "." + e, fullBase, Bool(false), f);
    assert "/" + name + ("." + e) == "/" + name + "." + e;
  }

  /** A target whose only special key is `ext` contributes just the extension. */
  lemma ExtensionSpecials(url: Params, e: string)
    requires "_full" !in url.named && "?" !in url.named && "#" !in url.named
    requires "ext" in url.named && url.named["ext"] == Str(e)
    ensures var sp := TakeSpecials(url, Bool(false));
            sp.ext == "." + e && sp.frag == "" && sp.q == Null && sp.full == Bool(false)
  {
  }

  /** A one-segment directory path followed by an extension loses its slash. */
  lemma FinishDirWithExtension(name: string, ext: string, fullBase: Option<string>, escape: Value, f: Foreign)
    requires Segment(name)
    requires Truthy(Str(ext))
    ensures Finish(name + "/", Bool(false), fullBase, ext, Null, "", escape, f) == "/" + name + ext
  {
    var o := name + "/";
    assert forall i :: 0 <= i < |o| ==> o[i] != ':' by {
      forall i | 0 <= i < |o| ensures o[i] != ':' {
        if i < |name| { assert o[i] == name[i]; }
      }
    }
    assert NoDoubleSlash("/" + o) by {
      forall i | 0 <= i < |"/" + o| - 1 ensures !(("/" + o)[i] == '/' && ("/" + o)[i + 1] == '/') {
        assert ("/" + o)[i + 1] == o[i];
        if i < |name| { assert o[i] == name[i]; }
      }
    }
    FinishWithExtension(o, ext, fullBase, escape, f);
    var p := "/" + name;
    assert p[|p| - 1] == name[|name| - 1];
    assert "/" + o == p + "/";
    assert (p + "/")[..|p|] == p;
    assert RTrimSlashes(p) == p;
  }

  /** The array branch once the route collection has matched. */
  lemma ArrayUrlMatched(r: Router, c: Collection, f: Foreign, fullBase: Option<string>, cur: Current,
                        url: Params, isFull: Value, escape: Value, o: string)
    requires var sp := TakeSpecials(url, isFull);
             c.matchUrl(r.routes, MatchInput(sp.url, cur.params, r.prefixes), cur.params, cur.ctx) == Some(o)
    ensures var sp := TakeSpecials(url, isFull);
            ArrayUrl(r, c, f, fullBase, cur, url, isFull, escape) == Finish(o, sp.full, fullBase, sp.ext, sp.q, sp.frag, escape, f)
  {
  }

  /** A clean path followed by an extension loses its trailing slashes. */
  lemma FinishWithExtension(o: string, ext: string, fullBase: Option<string>, escape: Value, f: Foreign)
    requires forall i :: 0 <= i < |o| ==> o[i] != ':'
    requires NoDoubleSlash("/" + o) && Truthy(Str(ext))
    ensures Finish(o, Bool(false), fullBase, ext, Null, "", escape, f) == RTrimSlashes("/" + o) + ext
  {
    FinishPathClean(o, fullBase, ext);
    FinishNoQuery(o, Bool(false), fullBase, ext, escape, f);
  }

  /** `&amp;` joins when `escape` is exactly `true`, `&` otherwise. */
  function Joiner(escape: Value): string {
    if escape == Bool(true) then "&amp;" else "&"
  }

  /**
   * `queryString($q, $extra, $escape)`: null when both are empty; an array
   * `q` is merged with `extra` and built; a string `q` is kept and the built
   * `extra` joined to it; the result starts with `?` unless it is empty.
   */
  function QueryString(q: Value, extra: Params, escape: Value, f: Foreign): (res: Option<string>)
    ensures res.None? <==> Empty(q) && Empty(Arr(extra))
    ensures res.Some? && res.value != "" ==> res.value[0] == '?'
  {
    if Empty(q) && Empty(Arr(extra)) then None
    else
      var join := Joiner(escape);
      var out := if q.Arr? then "" else ToStr(q);
      var query := if q.Arr? then Merge(q.a, extra) else extra;
      var addition := f.buildQuery(query, join);
      var joined := if Truthy(Str(out)) && Truthy(Str(addition)) && !EndsWith(out, join) then out + join else out;
      var all := joined + addition;
      Some(if |all| > 0 && all[0] != '?' then "?" + all else all)
  }

  /** The text with a `?` in front unless it already has one. */
  function Questioned(s: string): string {
    if |s| > 0 && s[0] != '?' then "?" + s else s
  }

  /** An array query is merged with the extra parameters and built with the joiner. */
  lemma QueryStringOfArray(a: Params, extra: Params, escape: Value, f: Foreign)
    requires Truthy(Arr(a)) || Truthy(Arr(extra))
    ensures QueryString(Arr(a), extra, escape, f) == Some(Questioned(f.buildQuery(Merge(a, extra), Joiner(escape))))
  {
    var add := f.buildQuery(Merge(a, extra), Joiner(escape));
    assert !Truthy(Str(""));
    assert "" + add == add;
  }

  /**
   * A string query is kept; the built extras follow it after exactly one
   * joiner, none being added when the string already ends with one.
   */
  lemma QueryStringOfString(s: string, extra: Params, escape: Value, f: Foreign)
    requires Truthy(Str(s))
    ensures var add := f.buildQuery(extra, Joiner(escape));
            QueryString(Str(s), extra, escape, f) ==
              Some(Questioned(if Truthy(Str(add)) && !EndsWith(s, Joiner(escape)) then s + Joiner(escape) + add else s + add))
  {
  }

  /** A string query with nothing to add comes back with a `?` in front unless it has one. */
  lemma QueryStringKeepsString(s: string, escape: Value, f: Foreign)
    requires Truthy(Str(s)) && f.buildQuery(NoParams, Joiner(escape)) == ""
    ensures QueryString(Str(s), NoParams, escape, f) == Some(if s[0] == '?' then s else "?" + s)
  {
    assert s + "" == s;
  }

  /** Escaping needs `true` itself: any other value, a truthy integer included, builds what `false` builds. */
  lemma QueryStringEscapeIsStrict(q: Value, extra: Params, escape: Value, f: Foreign)
    requires escape != Bool(true)
    ensures QueryString(q, extra, escape, f) == QueryString(q, extra, Bool(false), f)
  {
    assert Joiner(escape) == Joiner(Bool(false));
  }

}
